=== FILE: README.md ===
# Admin dashboard: store, list views and form logic

This project models the pure collection and form logic of an e-commerce admin dashboard
(products, categories, orders and contact messages, with Uzbek/English/Russian texts).
The rest of that application is REST and React wiring. The model is written in Dafny and
verified. It covers four pieces:

- **The local entity store** (`AdminStore`, from the `AdminProvider` context). It holds four
  sequences. Each has add (append one record with a fresh id and creation time), update
  (merge a partial record into every record with the id) and delete (drop every record with
  the id). A category cannot be deleted while a product refers to it. Marking a message read
  only sets its flag. When no categories were stored, two demo categories are seeded.
- **List views.** `ProductsPage` covers search over the three names, the category filter and
  sorting by price (cheapest first) or date (newest first). `OrdersPage` covers the status
  filter, badge colours and the item count. `MessagesPage` covers view/mark-once, the
  delete confirmation, the unread count and the header. `Dashboard` covers the counters and
  the first five orders and messages in store order. The store appends new records, so these
  are the five earliest added, not the latest.
- **Dialog drafts and submission** (`ProductDialog`, `CategoryDialog`, shared `Forms`). This
  covers seeding the draft from the edited record or blanks, and the validation that rejects
  a missing Uzbek name or an unparseable price. It also covers the payload, where empty
  optional strings become absent fields, and the rule that the dialog closes only after a
  successful create. The image upload and its toasts are covered too.
- **Order details** (`OrderDetails`). A status change touches only the status and always
  shows a success toast. Line totals are price × quantity. The footer shows the stored total.

Each entity is a datatype (`Entities`). A `Partial<T>` update is a patch of `Field<T>`
values: `Keep` for an absent key, `Set(v)` for a present one. The fresh id, the clock,
the local time-zone offset, the case mapping (`lower`), the price parser (`parse`), the upload
result and the create request's outcome are all parameters. Handlers on the messages page
return the store calls they make and the toasts they show, so "exactly one call" can be
stated. `Apply` runs those calls.

## Behaviour worth noting

- The order details footer always shows the stored `totalPrice`. It is never the sum of
  the lines, even when items are present (`OrderDetails.FooterNotReconciled`).
- The order details dialog writes the new status into the local store. The orders list shows
  orders fetched from the server, and the dialog shows the `order` it was opened with.
  So neither the list badge nor the dialog reflects the change. `OrderDetails.ChangeStatus`
  models the store write and the toast.
- Products sort ascending by price and descending by creation date.
- The dashboard's "recent" lists are the first five entries. Once five exist, adding more
  does not change them (`Dashboard.AddOrderRecent`).
- The upload handler reads the upload hook's error as it was when the handler was created.
  A failed upload after a clean render therefore shows no error toast
  (`ProductDialog.FailedUploadAfterCleanRenderIsSilent`).
- The remove-image button in the product dialog has no `type`, so inside the form it
  submits it. The submit reads the draft of the same render, so a valid draft is sent with
  the image that was just removed (`ProductDialog.RemovingImageSendsIt`).
- A category whose id is literally "none" cannot stay selected in the product dialog
  (`ProductDialog.NoneIdCannotBeKept`).

## Model

| member | source | states |
|---|---|---|
| AdminStore.Load | src/contexts/AdminContext.tsx:41-61 | Stored collections are taken as read. With no stored categories the list is exactly the two demo categories with ids "1" and "2". |
| AdminStore.SeededCategoryDeletable | src/contexts/AdminContext.tsx:53-60 | After seeding, demo category "1" can be deleted when no stored product refers to it. Only category "2" then remains. |
| AdminStore.AddProduct | src/contexts/AdminContext.tsx:81-88 | The old list is an unchanged prefix. Exactly one product is appended: the input with the fresh id and creation time. The other collections are unchanged. |
| AdminStore.UpdateProduct | src/contexts/AdminContext.tsx:90-92 | Length and order are kept. Products with another id are unchanged. Products with the id get the patch's present keys and keep the rest. |
| Entities.MergeProduct | src/contexts/AdminContext.tsx:91 | The empty patch leaves a product as it is. A patch without an id keeps the product's id. |
| Entities.MergeProductIdempotent | src/contexts/AdminContext.tsx:91 | Merging the same partial product twice equals merging it once. |
| AdminStore.DeleteProduct | src/contexts/AdminContext.tsx:94-96 | The result is a subsequence of the old list. No product with the id remains. Every other product keeps its multiplicity. |
| AdminStore.AddCategory | src/contexts/AdminContext.tsx:99-106 | Appends exactly one category with the fresh id and time. Nothing else changes. |
| AdminStore.UpdateCategory | src/contexts/AdminContext.tsx:108-110 | Merges the patch into exactly the categories with the id. Length and order are kept. |
| Entities.MergeCategory | src/contexts/AdminContext.tsx:109 | The empty patch leaves a category as it is. A patch without an id keeps the category's id. |
| Entities.MergeCategoryIdempotent | src/contexts/AdminContext.tsx:109 | Merging the same partial category twice equals merging it once. |
| AdminStore.DeleteCategory | src/contexts/AdminContext.tsx:112-118 | Fails with the in-use message iff some product refers to the id. Otherwise it removes exactly the categories with that id, in order, and changes nothing else. |
| AdminStore.AddOrder | src/contexts/AdminContext.tsx:121-128 | Appends exactly one order with the fresh id and time. Nothing else changes. |
| AdminStore.UpdateOrder | src/contexts/AdminContext.tsx:130-132 | Merges the patch into exactly the orders with the id. Length and order are kept. |
| Entities.MergeOrder | src/contexts/AdminContext.tsx:131 | The empty patch leaves an order as it is. A patch without an id keeps the order's id. |
| Entities.MergeOrderIdempotent | src/contexts/AdminContext.tsx:131 | Merging the same partial order twice equals merging it once. |
| AdminStore.DeleteOrder | src/contexts/AdminContext.tsx:134-136 | Removes exactly the orders with the id and keeps the others in order. |
| AdminStore.AddMessage | src/contexts/AdminContext.tsx:139-147 | Appends exactly one message. It is unread, whatever the input's flag. |
| AdminStore.MarkMessageAsRead | src/contexts/AdminContext.tsx:149-151 | Only the read flag of messages with the id changes. Every other message and field is untouched. |
| AdminStore.DeleteMessage | src/contexts/AdminContext.tsx:153-155 | Removes exactly the messages with the id and keeps the others in order. |
| AdminStore.AddThenDeleteProduct | src/contexts/AdminContext.tsx:81-96 | Deleting a just-added product by its fresh id restores the store. |
| AdminStore.AddThenDeleteCategory | src/contexts/AdminContext.tsx:99-118 | Deleting a just-added, unreferenced category succeeds and restores the store. |
| AdminStore.AddThenDeleteOrder | src/contexts/AdminContext.tsx:121-136 | Deleting a just-added order by its fresh id restores the store. |
| AdminStore.AddThenDeleteMessage | src/contexts/AdminContext.tsx:139-155 | Deleting a just-added message by its fresh id restores the store. |
| AdminStore.UpdateProductIdempotent | src/contexts/AdminContext.tsx:90-92 | Applying the same product update twice equals applying it once, even when the patch changes the id. |
| AdminStore.UpdateCategoryIdempotent | src/contexts/AdminContext.tsx:108-110 | Applying the same category update twice equals applying it once. |
| AdminStore.UpdateOrderIdempotent | src/contexts/AdminContext.tsx:130-132 | Applying the same order update twice equals applying it once. |
| AdminStore.MarkMessageAsReadIdempotent | src/contexts/AdminContext.tsx:149-151 | Marking a message read twice equals marking it once. |
| AdminStore.DeleteProducts | src/contexts/AdminContext.tsx:94-96 | Successive product deletes from separate events leave exactly the products whose id is not among those deleted. |
| AdminStore.DeleteCategoryAfterClearing | src/contexts/AdminContext.tsx:112-118 | After every product that refers to a category has been deleted in earlier events, deleting the category succeeds. |
| AdminStore.DeleteCategoryAfterLastReference | src/contexts/AdminContext.tsx:112-118 | If all referring products share one id, deleting that product in an earlier event unblocks the category delete. |
| Text.Contains | src/pages/Products.tsx:41-44 | `includes` holds iff the needle occurs at some index of the haystack. |
| Text.ParseShowRoundTrip | src/components/ProductDialog.tsx:71 | An integer price rendered as text and parsed back gives the same integer, even with non-digit text after it. |
| Text.ShowInt | src/components/ProductDialog.tsx:71 | Non-empty. Starts with '-' iff negative. The digits after any sign have the value of the magnitude. |
| Text.ParseDecimal | src/components/ProductDialog.tsx:115 | Not a number iff no digit follows the optional sign. |
| ProductsPage.MatchesSearch | src/pages/Products.tsx:39-44 | A product matches iff the lower-cased query occurs in its lower-cased Uzbek, English or Russian name. |
| ProductsPage.VisibleProducts | src/pages/Products.tsx:37-54 | The view is a permutation of the products passing search and category filter, each with its multiplicity. A non-"all" filter admits only that category. By price the view is non-decreasing in price; by date it is non-increasing in creation time. |
| ProductsPage.EmptyFiltersShowAll | src/pages/Products.tsx:39-49 | With an empty query and "all", every product is shown exactly as often as it occurs. |
| ProductsPage.CategoryName | src/pages/Products.tsx:87-89 | Gives the first category with the id's Uzbek name. Gives "Noma'lum" when there is no such category or its name is empty. |
| OrdersPage.VisibleOrders | src/pages/Orders.tsx:49-52 | "all" shows the fetched list as is (empty when none was fetched). Any other filter keeps exactly the orders with that status, in order. |
| OrdersPage.StatusColor | src/pages/Orders.tsx:94-105 | Blue iff "Yangi", yellow iff "Jarayonda", green iff "Yakunlangan", gray iff any other string. |
| OrdersPage.BadgeIdentifiesStatus | src/pages/Orders.tsx:94-105 | For a known status, two statuses share a badge iff they are equal. |
| OrdersPage.FilteredOrdersShareBadge | src/pages/Orders.tsx:49-105 | Under a status filter, every listed order shows the filtered status's badge. |
| OrdersPage.ItemCount | src/pages/Orders.tsx:158 | The length of `products` when non-empty, and 1 when it is absent or empty. |
| OrdersPage.ItemCountGrows | src/pages/Orders.tsx:158 | Recording one more product raises the count to the new list length. That is one more, except from an empty list, where it stays 1. |
| OrderDetails.ChangeStatus | src/components/OrderDetailsDialog.tsx:18-24 | Only the status of the orders with the dialog's id changes. Other orders, other fields and other collections are unchanged. The success toast shows in every case, even when no stored order has the id. |
| OrderDetails.ChangeToSameStatus | src/components/OrderDetailsDialog.tsx:18-19 | Choosing the status the order already has leaves the store unchanged. |
| OrderDetails.ProductName | src/components/OrderDetailsDialog.tsx:26-28 | Gives the first product with the id's Uzbek name. Gives "Noma'lum mahsulot" when there is none or its name is empty. |
| OrderDetails.LineTotals | src/components/OrderDetailsDialog.tsx:95-103 | One total per item, in item order, each equal to unit price × quantity. |
| OrderDetails.AddedItemAddsItsLine | src/components/OrderDetailsDialog.tsx:95-103 | Adding an item raises the sum of the line totals by that item's price × quantity. |
| OrderDetails.ChangeStatusKeepsTotals | src/components/OrderDetailsDialog.tsx:18-24 | A status change keeps every order's line totals, footer and item count. |
| OrderDetails.FooterIgnoresItems | src/components/OrderDetailsDialog.tsx:112 | The footer does not depend on the items. |
| OrderDetails.FooterTotal | src/components/OrderDetailsDialog.tsx:112 | The footer shows the order's stored `totalPrice`. It has no contract of its own: `FooterIgnoresItems` and `FooterNotReconciled` state its properties. |
| OrderDetails.FooterNotReconciled | src/components/OrderDetailsDialog.tsx:95-115 | Some order shows a footer that differs from the sum of its line totals. |
| MessagesPage.ViewMessage | src/pages/Messages.tsx:19-25 | Opens the details with the message and shows no toast. It makes exactly one mark-as-read call for that id if the message is unread, and none if it is read. |
| MessagesPage.ViewingTwiceMarksOnce | src/pages/Messages.tsx:19-22 | After viewing a message, the store's copy is read. Viewing it again makes no call and leaves the store unchanged. |
| MessagesPage.RequestDelete | src/pages/Messages.tsx:27-30 | Remembers the message as pending and opens the confirmation. The details state is unchanged. |
| MessagesPage.ConfirmDelete | src/pages/Messages.tsx:32-42 | With a pending message it makes exactly one delete call for its id and shows the success toast. It also clears the pending message and closes the confirmation. With none it makes no call, shows nothing and changes nothing. |
| MessagesPage.RequestThenConfirmDeletes | src/pages/Messages.tsx:27-42 | Requesting and confirming a delete removes exactly the messages with that id. Nothing else changes. |
| MessagesPage.UnreadCount | src/pages/Messages.tsx:54 | Equals the number of positions holding an unread message. Hence at most the number of messages, zero iff all are read, and the length iff none are read. |
| MessagesPage.MarkingLowersUnread | src/contexts/AdminContext.tsx:149-151 | Marking id as read lowers the unread count by exactly the number of unread messages with that id. |
| MessagesPage.HeaderText | src/pages/Messages.tsx:62 | Shows the all-read text iff the unread count is zero. Otherwise the text starts with the count in decimal, and parsing it gives the count back. |
| Dashboard.TodayOrders | src/pages/Dashboard.tsx:9-13 | Exactly the orders created on the local day of now, each as often as the list holds it, in order, so no more than all orders. |
| Dashboard.SameDay | src/pages/Dashboard.tsx:10-12 | Equal local calendar days, read as the floor day under a fixed offset. Two instants on the same day lie less than 24 hours apart. |
| Dashboard.SameDayWindow | src/pages/Dashboard.tsx:9-13 | An order created within the 24 hours after local midnight counts as today's. |
| Dashboard.DashboardStats | src/pages/Dashboard.tsx:18-47 | Total orders is the order count. Today's count is the number of orders created on the local day of now, which does not exceed it. The product total is the remote one. New messages is the unread count, zero iff all are read. |
| Dashboard.AddOrderCounts | src/pages/Dashboard.tsx:18-47 | Adding an order raises total orders by one. Today's count rises by one iff the order was created on the dashboard's day. The other counters stay. |
| Dashboard.AddMessageCounts | src/pages/Dashboard.tsx:18-47 | Adding a message raises new messages by one. The other counters stay. |
| Dashboard.Recent | src/pages/Dashboard.tsx:79-115 | `slice(0, 5)` for both lists (orders at line 79, messages at line 115): the prefix of length min(5, n). |
| Dashboard.AddOrderRecent | src/pages/Dashboard.tsx:79 | With five or more orders, adding one leaves the recent orders unchanged. With fewer, the new order shows last. |
| Dashboard.AddMessageRecent | src/pages/Dashboard.tsx:115 | With five or more messages, adding one leaves the recent messages unchanged. With fewer, the new message shows last. |
| ProductDialog.SeedDraft | src/components/ProductDialog.tsx:62-90 | With no product every field is blank. Editing copies the texts and category. It renders the price as text that parses back to it, and turns a missing size or image into "". |
| ProductDialog.Submit | src/components/ProductDialog.tsx:112-152 | Sends nothing and shows the error iff the Uzbek name is empty or the price does not parse. Otherwise the payload carries the name verbatim and the parsed price. Each optional field is absent iff its text is empty and equal to it otherwise. The dialog closes iff the request was sent and succeeded. |
| Forms.OrAbsent | src/components/ProductDialog.tsx:127-135 | An empty form string becomes an absent field. Any other string is kept as is. |
| Forms.Send | src/components/ProductDialog.tsx:138-151 | The payload is sent. The dialog closes iff the request succeeded. The toast is destructive iff it failed, and then carries the server's message, or the fallback text when that message is empty. |
| ProductDialog.UnchangedEditResends | src/components/ProductDialog.tsx:62-152 | Opening a product and saving unchanged sends its price and texts back. Only empty optional texts are dropped. |
| ProductDialog.SelectCategory | src/components/ProductDialog.tsx:168-175 | "none" clears the category; any other value becomes the id. No other field changes. |
| ProductDialog.ShownCategory | src/components/ProductDialog.tsx:169 | Never empty. Shows "none" iff the category is empty or literally "none", and otherwise the category id. |
| ProductDialog.ReselectKeepsDraft | src/components/ProductDialog.tsx:168-175 | Choosing the value the select shows leaves the draft unchanged, unless the id is literally "none". |
| ProductDialog.NoneIdCannotBeKept | src/components/ProductDialog.tsx:169-173 | A category whose id is "none" is cleared when re-chosen. |
| ProductDialog.ImageUploaded | src/components/ProductDialog.tsx:92-110 | A non-empty upload URL replaces only the image and shows the success toast. With no file, or a failed upload, the draft is unchanged. A failed upload shows the error toast iff the error the handler saw is non-empty, and that toast carries that error. |
| ProductDialog.FailedUploadAfterCleanRenderIsSilent | src/components/ProductDialog.tsx:103-108 | A failed upload whose handler saw no earlier error leaves the draft and shows no toast. |
| ProductDialog.ClearImage | src/components/ProductDialog.tsx:259 | Empties only the image. |
| ProductDialog.RemoveImageClicked | src/components/ProductDialog.tsx:112-135 | The remove-image button also submits the form: the draft loses only its image, while the submit is the one for the draft as it was, accepted iff it has an Uzbek name and a parseable price. |
| ProductDialog.RemovingImageSendsIt | src/components/ProductDialog.tsx:255-262 | Removing the image of a valid draft sends a request that still carries that image, while the form shows none. |
| ProductDialog.UploadReachesPayload | src/components/ProductDialog.tsx:96-135 | An uploaded URL is the image the next accepted submit sends. After clearing, no image is sent. |
| CategoryDialog.SeedDraft | src/components/CategoryDialog.tsx:35-49 | The draft is the edited category's three names, or three blanks. |
| CategoryDialog.Submit | src/components/CategoryDialog.tsx:51-83 | Sends nothing and shows the error iff the Uzbek name is empty. Otherwise it sends it verbatim, with the English and Russian names absent iff empty. The dialog closes iff the request succeeded. |
| CategoryDialog.UnchangedEditResends | src/components/CategoryDialog.tsx:35-83 | Opening a named category and saving unchanged sends back its three names. |
| CategoryDialog.UzbekOnlyOmitsOthers | src/components/CategoryDialog.tsx:63-68 | A draft with only the Uzbek name sends a request without English or Russian names. |

## Left out

- Browser storage and JSON: reading, parsing and writing the four storage keys. `Load`
  takes what was read as `Option` values (missing or empty key = `None`). The write-back
  effects are not modelled.
- Remote hooks for products, categories, orders and upload: network calls with cache
  invalidation. Their outcomes enter as parameters (`CreateResult`, the fetched list, the
  upload URL, the remote product total).
- The remote delete on the categories, products and orders pages: asynchronous wiring.
  The store's category guard is not carried over to it.
- Shell, theme, navigation, settings, the not-found page and the message details dialog:
  presentational, or I/O only.
- Loading and error placeholders of the orders page: presentational.
- Per-field text inputs of the dialogs: each is a one-field record update of the draft.
- Numbers: prices and quantities are unbounded integers. Fractions, `NaN` and locale
  formatting (`toLocaleString`, `toLocaleDateString`) are not modelled.
- Price parsing: `parse` is a parameter. `Text.ParseDecimal` is an integer-only instance (sign and
  leading digits). It does not read fractions, exponents, leading spaces or `Infinity`.
- Case mapping: `lower` is a parameter. Unicode `toLowerCase` is not modelled.
- Ids and the clock: the fresh id and the creation time are parameters. Ids are not assumed unique.
- Dates: `createdAt` is a millisecond count, so invalid date strings are not modelled.
  The local day uses one fixed offset, so daylight-saving changes are not modelled.
- Order.products: its elements are modelled as strings; only the length is read.
- ProductsPage.VisibleProducts: does not state that products of equal price or date keep their
  filtered order, although the insertion sort used keeps it.
- Upload response: the URL field of the upload response is taken to be a string. A missing
  field behaves like the empty string, which the handler treats as a failed upload.
- The shared `Button` component is not part of this model. It is taken to render a plain
  `<button>` that passes its props through, so a button without `type` submits its form.
- Toast timing and dismissal: a toast is modelled as the value a handler shows, not as
  something on screen.
- Calls within one handler: each store call is modelled as seeing the result of the
  previous one. That holds for calls from separate events, because the provider
  re-renders in between (`AdminStore.DeleteProducts`, `DeleteCategoryAfterClearing`,
  `DeleteCategoryAfterLastReference` and `MessagesPage.Apply` rely on it). Within one
  handler, every call reads the same render's state and the last write wins. No handler
  in the modelled code makes two store calls, so each single operation is exact.

=== FILE: admin_store.dfy ===
/**
 * The local entity store (`AdminProvider`): four collections held in memory, each
 * with add, update and delete. Every operation is a pure transition from the old
 * store to the new one; the fresh id and the clock reading are parameters.
 */
module AdminStore {
  import opened Wrappers
  import opened Seqs
  import opened Entities

  datatype Store = Store(
    products: seq<Product>,
    categories: seq<Category>,
    orders: seq<Order>,
    messages: seq<ContactMessage>)

  /** Thrown by `DeleteCategory` when products still refer to the category. */
  const CategoryInUse := "Bu kategoriyada mahsulotlar mavjud. Avval mahsulotlarni o'chiring."

  predicate OnlyProductsChanged(s: Store, t: Store) {
    t.categories == s.categories && t.orders == s.orders && t.messages == s.messages
  }

  predicate OnlyCategoriesChanged(s: Store, t: Store) {
    t.products == s.products && t.orders == s.orders && t.messages == s.messages
  }

  predicate OnlyOrdersChanged(s: Store, t: Store) {
    t.products == s.products && t.categories == s.categories && t.messages == s.messages
  }

  predicate OnlyMessagesChanged(s: Store, t: Store) {
    t.products == s.products && t.categories == s.categories && t.orders == s.orders
  }

  // ---------------------------------------------------------------- loading

  /** The two demo categories written when no categories were persisted. */
  function DemoCategories(now: Timestamp): seq<Category> {
    [ Category("1", "Elektronika", "Electronics", "Электроника", now),
      Category("2", "Kiyim", "Clothing", "Одежда", now) ]
  }

  /**
   * The in-memory state after mounting, given what was read from storage for each
   * key (`None` when the key is missing or empty). Only the categories are seeded.
   */
  function Load(products: Option<seq<Product>>, categories: Option<seq<Category>>,
                orders: Option<seq<Order>>, messages: Option<seq<ContactMessage>>,
                now: Timestamp): (s: Store)
    ensures s.products == products.GetOr([]) && s.orders == orders.GetOr([])
    ensures s.messages == messages.GetOr([])
    ensures categories.Some? ==> s.categories == categories.value
    ensures categories.None? ==>
              |s.categories| == 2 && s.categories[0].id == "1" && s.categories[1].id == "2"
              && s.categories[0].nameUz == "Elektronika" && s.categories[1].nameUz == "Kiyim"
              && forall c :: c in s.categories ==> c.createdAt == now
  {
    Store(products.GetOr([]),
          match categories case Some(cs) => cs case None => DemoCategories(now),
          orders.GetOr([]),
          messages.GetOr([]))
  }

  /**
   * A seeded demo category can be deleted straight away when no stored product
   * refers to it, and the other demo category stays.
   */
  lemma SeededCategoryDeletable(products: Option<seq<Product>>, orders: Option<seq<Order>>,
                                messages: Option<seq<ContactMessage>>, now: Timestamp)
    requires forall p :: p in products.GetOr([]) ==> p.categoryId != "1"
    ensures var s := Load(products, None, orders, messages, now);
            var r := DeleteCategory(s, "1");
            r.Success? && |r.value.categories| == 1 && r.value.categories[0].id == "2"
  {
    var s := Load(products, None, orders, messages, now);
    var r := DeleteCategory(s, "1");
    assert r.Success?;
    var demo := DemoCategories(now);
    assert multiset(r.value.categories)[demo[0]] == 0;
    assert multiset(r.value.categories)[demo[1]] == 1;
    assert multiset(demo) == multiset{demo[0], demo[1]};
    assert forall c :: c != demo[1] ==> multiset(r.value.categories)[c] == 0;
    assert multiset(r.value.categories) == multiset{demo[1]};
    assert r.value.categories == [demo[1]] by {
      assert |r.value.categories| == |multiset(r.value.categories)| == 1;
      assert r.value.categories[0] in multiset(r.value.categories);
    }
  }

  // ---------------------------------------------------------------- products

  /** Appends `p` with the fresh `id` and the creation time `now`. */
  function AddProduct(s: Store, p: Product, id: Id, now: Timestamp): (t: Store)
    ensures |t.products| == |s.products| + 1
    ensures t.products[..|s.products|] == s.products
    ensures t.products[|s.products|] == p.(id := id, createdAt := now)
    ensures OnlyProductsChanged(s, t)
  {
    s.(products := s.products + [p.(id := id, createdAt := now)])
  }

  /** Merges `d` into every product whose id is `id`. */
  function UpdateProduct(s: Store, id: Id, d: ProductPatch): (t: Store)
    ensures |t.products| == |s.products|
    ensures forall i :: 0 <= i < |s.products| && s.products[i].id != id ==> t.products[i] == s.products[i]
    ensures forall i :: 0 <= i < |s.products| && s.products[i].id == id ==>
              t.products[i] == MergeProduct(s.products[i], d)
    ensures OnlyProductsChanged(s, t)
  {
    var ps := s.products;
    s.(products := seq(|ps|, i requires 0 <= i < |ps| => if ps[i].id == id then MergeProduct(ps[i], d) else ps[i]))
  }

  /** Removes every product whose id is `id`, keeping the others in order. */
  function DeleteProduct(s: Store, id: Id): (t: Store)
    ensures forall p :: multiset(t.products)[p] == if p.id == id then 0 else multiset(s.products)[p]
    ensures forall p :: p in t.products <==> p in s.products && p.id != id
    ensures IsSubsequence(t.products, s.products)
    ensures OnlyProductsChanged(s, t)
  {
    var keep := (p: Product) => p.id != id;
    FilterFacts(s.products, keep);
    s.(products := Filter(s.products, keep))
  }

  // ---------------------------------------------------------------- categories

  function AddCategory(s: Store, c: Category, id: Id, now: Timestamp): (t: Store)
    ensures |t.categories| == |s.categories| + 1
    ensures t.categories[..|s.categories|] == s.categories
    ensures t.categories[|s.categories|] == c.(id := id, createdAt := now)
    ensures OnlyCategoriesChanged(s, t)
  {
    s.(categories := s.categories + [c.(id := id, createdAt := now)])
  }

  function UpdateCategory(s: Store, id: Id, d: CategoryPatch): (t: Store)
    ensures |t.categories| == |s.categories|
    ensures forall i :: 0 <= i < |s.categories| && s.categories[i].id != id ==> t.categories[i] == s.categories[i]
    ensures forall i :: 0 <= i < |s.categories| && s.categories[i].id == id ==>
              t.categories[i] == MergeCategory(s.categories[i], d)
    ensures OnlyCategoriesChanged(s, t)
  {
    var cs := s.categories;
    s.(categories := seq(|cs|, i requires 0 <= i < |cs| => if cs[i].id == id then MergeCategory(cs[i], d) else cs[i]))
  }

  /** Some product refers to category `id` (`products.some(p => p.categoryId === id)`). */
  predicate CategoryReferenced(s: Store, id: Id) {
    exists p :: p in s.products && p.categoryId == id
  }

  /**
   * Removes every category whose id is `id`, unless a product still refers to it,
   * in which case the store is left as it was and the error is reported.
   */
  function DeleteCategory(s: Store, id: Id): (r: Result<Store, string>)
    ensures r.Failure? <==> exists p :: p in s.products && p.categoryId == id
    ensures r.Failure? ==> r.error == CategoryInUse
    ensures r.Success? ==> OnlyCategoriesChanged(s, r.value)
    ensures r.Success? ==> forall c :: multiset(r.value.categories)[c] ==
                                       (if c.id == id then 0 else multiset(s.categories)[c])
    ensures r.Success? ==> IsSubsequence(r.value.categories, s.categories)
  {
    if CategoryReferenced(s, id) then Failure(CategoryInUse)
    else
      var keep := (c: Category) => c.id != id;
      FilterFacts(s.categories, keep);
      Success(s.(categories := Filter(s.categories, keep)))
  }

  // ---------------------------------------------------------------- orders

  function AddOrder(s: Store, o: Order, id: Id, now: Timestamp): (t: Store)
    ensures |t.orders| == |s.orders| + 1
    ensures t.orders[..|s.orders|] == s.orders
    ensures t.orders[|s.orders|] == o.(id := id, createdAt := now)
    ensures OnlyOrdersChanged(s, t)
  {
    s.(orders := s.orders + [o.(id := id, createdAt := now)])
  }

  function UpdateOrder(s: Store, id: Id, d: OrderPatch): (t: Store)
    ensures |t.orders| == |s.orders|
    ensures forall i :: 0 <= i < |s.orders| && s.orders[i].id != id ==> t.orders[i] == s.orders[i]
    ensures forall i :: 0 <= i < |s.orders| && s.orders[i].id == id ==>
              t.orders[i] == MergeOrder(s.orders[i], d)
    ensures OnlyOrdersChanged(s, t)
  {
    var os := s.orders;
    s.(orders := seq(|os|, i requires 0 <= i < |os| => if os[i].id == id then MergeOrder(os[i], d) else os[i]))
  }

  function DeleteOrder(s: Store, id: Id): (t: Store)
    ensures forall o :: multiset(t.orders)[o] == if o.id == id then 0 else multiset(s.orders)[o]
    ensures forall o :: o in t.orders <==> o in s.orders && o.id != id
    ensures IsSubsequence(t.orders, s.orders)
    ensures OnlyOrdersChanged(s, t)
  {
    var keep := (o: Order) => o.id != id;
    FilterFacts(s.orders, keep);
    s.(orders := Filter(s.orders, keep))
  }

  // ---------------------------------------------------------------- messages

  /** Appends `m` as a new, unread message with the fresh `id` and creation time `now`. */
  function AddMessage(s: Store, m: ContactMessage, id: Id, now: Timestamp): (t: Store)
    ensures |t.messages| == |s.messages| + 1
    ensures t.messages[..|s.messages|] == s.messages
    ensures !t.messages[|s.messages|].isRead
    ensures t.messages[|s.messages|] == m.(id := id, createdAt := now, isRead := false)
    ensures OnlyMessagesChanged(s, t)
  {
    s.(messages := s.messages + [m.(id := id, isRead := false, createdAt := now)])
  }

  /** The messages with the read flag set on every one whose id is `id`. */
  function MarkedRead(ms: seq<ContactMessage>, id: Id): seq<ContactMessage> {
    seq(|ms|, i requires 0 <= i < |ms| => if ms[i].id == id then ms[i].(isRead := true) else ms[i])
  }

  /** Sets the read flag of every message whose id is `id`. */
  function MarkMessageAsRead(s: Store, id: Id): (t: Store)
    ensures |t.messages| == |s.messages|
    ensures forall i :: 0 <= i < |s.messages| && s.messages[i].id != id ==> t.messages[i] == s.messages[i]
    ensures forall i :: 0 <= i < |s.messages| && s.messages[i].id == id ==>
              t.messages[i] == s.messages[i].(isRead := true)
    ensures OnlyMessagesChanged(s, t)
  {
    s.(messages := MarkedRead(s.messages, id))
  }

  function DeleteMessage(s: Store, id: Id): (t: Store)
    ensures forall m :: multiset(t.messages)[m] == if m.id == id then 0 else multiset(s.messages)[m]
    ensures forall m :: m in t.messages <==> m in s.messages && m.id != id
    ensures IsSubsequence(t.messages, s.messages)
    ensures OnlyMessagesChanged(s, t)
  {
    var keep := (m: ContactMessage) => m.id != id;
    FilterFacts(s.messages, keep);
    s.(messages := Filter(s.messages, keep))
  }

  // ---------------------------------------------------------------- properties

  /** Deleting a freshly added product by its new id restores the store. */
  lemma AddThenDeleteProduct(s: Store, p: Product, id: Id, now: Timestamp)
    requires forall q :: q in s.products ==> q.id != id
    ensures DeleteProduct(AddProduct(s, p, id, now), id) == s
  {
    FilterDropsAppended(s.products, p.(id := id, createdAt := now), (q: Product) => q.id != id);
  }

  /** Deleting a freshly added category by its new id succeeds and restores the store. */
  lemma AddThenDeleteCategory(s: Store, c: Category, id: Id, now: Timestamp)
    requires forall q :: q in s.categories ==> q.id != id
    requires !CategoryReferenced(s, id)
    ensures DeleteCategory(AddCategory(s, c, id, now), id) == Success(s)
  {
    FilterDropsAppended(s.categories, c.(id := id, createdAt := now), (q: Category) => q.id != id);
  }

  lemma AddThenDeleteOrder(s: Store, o: Order, id: Id, now: Timestamp)
    requires forall q :: q in s.orders ==> q.id != id
    ensures DeleteOrder(AddOrder(s, o, id, now), id) == s
  {
    FilterDropsAppended(s.orders, o.(id := id, createdAt := now), (q: Order) => q.id != id);
  }

  lemma AddThenDeleteMessage(s: Store, m: ContactMessage, id: Id, now: Timestamp)
    requires forall q :: q in s.messages ==> q.id != id
    ensures DeleteMessage(AddMessage(s, m, id, now), id) == s
  {
    FilterDropsAppended(s.messages, m.(id := id, isRead := false, createdAt := now), (q: ContactMessage) => q.id != id);
  }

  /** Applying the same partial product twice is applying it once, whatever it changes. */
  lemma UpdateProductIdempotent(s: Store, id: Id, d: ProductPatch)
    ensures UpdateProduct(UpdateProduct(s, id, d), id, d) == UpdateProduct(s, id, d)
  {
    var t := UpdateProduct(s, id, d);
    var u := UpdateProduct(t, id, d);
    forall i | 0 <= i < |s.products|
      ensures u.products[i] == t.products[i]
    {
      if s.products[i].id == id {
        MergeProductIdempotent(s.products[i], d);
      }
    }
  }

  lemma UpdateCategoryIdempotent(s: Store, id: Id, d: CategoryPatch)
    ensures UpdateCategory(UpdateCategory(s, id, d), id, d) == UpdateCategory(s, id, d)
  {
    var t := UpdateCategory(s, id, d);
    var u := UpdateCategory(t, id, d);
    forall i | 0 <= i < |s.categories|
      ensures u.categories[i] == t.categories[i]
    {
      if s.categories[i].id == id {
        MergeCategoryIdempotent(s.categories[i], d);
      }
    }
  }

  lemma UpdateOrderIdempotent(s: Store, id: Id, d: OrderPatch)
    ensures UpdateOrder(UpdateOrder(s, id, d), id, d) == UpdateOrder(s, id, d)
  {
    var t := UpdateOrder(s, id, d);
    var u := UpdateOrder(t, id, d);
    forall i | 0 <= i < |s.orders|
      ensures u.orders[i] == t.orders[i]
    {
      if s.orders[i].id == id {
        MergeOrderIdempotent(s.orders[i], d);
      }
    }
  }

  /** Marking a message as read a second time changes nothing. */
  lemma MarkMessageAsReadIdempotent(s: Store, id: Id)
    ensures MarkMessageAsRead(MarkMessageAsRead(s, id), id) == MarkMessageAsRead(s, id)
  {
    var t := MarkMessageAsRead(s, id);
    var u := MarkMessageAsRead(t, id);
    assert u.messages == t.messages;
  }

  /**
   * `DeleteProduct` calls, one per id, in order, each seeing the previous one's result:
   * successive calls from separate events (the provider re-renders in between).
   */
  function DeleteProducts(s: Store, ids: seq<Id>): (t: Store)
    ensures forall p :: p in t.products <==> p in s.products && p.id !in ids
    ensures OnlyProductsChanged(s, t)
    decreases |ids|
  {
    if |ids| == 0 then s
    else
      var t := DeleteProducts(DeleteProduct(s, ids[0]), ids[1..]);
      assert forall x :: x in ids <==> x == ids[0] || x in ids[1..];
      t
  }

  /** The ids of the products that refer to category `c`, in list order. */
  function ReferencingIds(s: Store, c: Id): (ids: seq<Id>)
    ensures forall p :: p in s.products && p.categoryId == c ==> p.id in ids
  {
    var refers := (p: Product) => p.categoryId == c;
    var refs := Filter(s.products, refers);
    FilterFacts(s.products, refers);
    var ids := seq(|refs|, i requires 0 <= i < |refs| => refs[i].id);
    assert forall p :: p in refs ==> p.id in ids by {
      forall p | p in refs ensures p.id in ids {
        var k :| 0 <= k < |refs| && refs[k] == p;
        assert ids[k] == p.id;
      }
    }
    ids
  }

  /** Once every product referring to `c` has been deleted in earlier events, deleting `c` succeeds. */
  lemma DeleteCategoryAfterClearing(s: Store, c: Id)
    ensures DeleteCategory(DeleteProducts(s, ReferencingIds(s, c)), c).Success?
  {
  }

  /** Deleting the only product that refers to `c`, in an earlier event, unblocks deleting `c`. */
  lemma DeleteCategoryAfterLastReference(s: Store, pid: Id, c: Id)
    requires forall p :: p in s.products && p.categoryId == c ==> p.id == pid
    ensures DeleteCategory(DeleteProduct(s, pid), c).Success?
  {
  }
}

=== FILE: category_dialog.dfy ===
/**
 * The category create/edit dialog (`src/components/CategoryDialog.tsx`). Editing
 * sends the same create request as adding: the payload has no id.
 */
module CategoryDialog {
  import opened Wrappers
  import opened Entities
  import opened Forms

  datatype Draft = Draft(nameUz: string, nameEn: string, nameRu: string)

  /** The body of the create request; empty English and Russian names are left out. */
  datatype Payload = Payload(nameUz: string, nameEn: Option<string>, nameRu: Option<string>)

  const MissingName := "O'zbek nomini kiriting"
  const CategoryAdded := "Kategoriya qo'shildi"

  /** The draft when the dialog opens: the edited category's three names, or all blank. */
  function SeedDraft(category: Option<Category>): (d: Draft)
    ensures category.None? ==> d.nameUz == "" && d.nameEn == "" && d.nameRu == ""
    ensures category.Some? ==>
              d.nameUz == category.value.nameUz && d.nameEn == category.value.nameEn
              && d.nameRu == category.value.nameRu
  {
    match category
    case None => Draft("", "", "")
    case Some(c) => Draft(c.nameUz, c.nameEn, c.nameRu)
  }

  /**
   * `handleSubmit`: rejects a draft without an Uzbek name; otherwise sends the
   * names, leaving out empty ones, and closes once the request succeeds.
   */
  function Submit(d: Draft, result: CreateResult): (r: Submission<Payload>)
    ensures r.request.None? <==> d.nameUz == ""
    ensures r.request.None? ==> r.toast == Toast(ErrorTitle, MissingName, true)
    ensures r.request.Some? ==>
              && r.request.value.nameUz == d.nameUz
              && Normalises(r.request.value.nameEn, d.nameEn)
              && Normalises(r.request.value.nameRu, d.nameRu)
    ensures r.closes <==> r.request.Some? && result.Created?
    ensures r.request.Some? && result.CreateFailed? ==> r.toast.destructive
  {
    if d.nameUz == "" then Reject(MissingName)
    else Send(Payload(d.nameUz, OrAbsent(d.nameEn), OrAbsent(d.nameRu)), result, CategoryAdded)
  }

  /** Opening a named category for editing and saving at once sends its three names back. */
  lemma UnchangedEditResends(c: Category, result: CreateResult)
    requires c.nameUz != ""
    ensures var r := Submit(SeedDraft(Some(c)), result);
            && r.request.Some?
            && r.request.value.nameUz == c.nameUz
            && OrEmpty(r.request.value.nameEn) == c.nameEn
            && OrEmpty(r.request.value.nameRu) == c.nameRu
  {
  }

  /** A category with only its Uzbek name sends a request with no English or Russian name. */
  lemma UzbekOnlyOmitsOthers(name: string, result: CreateResult)
    requires name != ""
    ensures Submit(Draft(name, "", ""), result).request == Some(Payload(name, None, None))
  {
  }
}

=== FILE: dashboard.dfy ===
/**
 * The dashboard (`src/pages/Dashboard.tsx`): four counters and the first five
 * orders and messages in store order. The store appends, so these are the five
 * earliest added, not the latest. The clock reading and the local time-zone
 * offset are parameters.
 */
module Dashboard {
  import opened Wrappers
  import opened Seqs
  import opened Entities
  import opened AdminStore
  import opened MessagesPage

  const MillisPerDay := 86_400_000

  /** How many entries each "recent" list shows. */
  const RecentLimit := 5

  /** The local calendar day of an instant, for a fixed offset from UTC in milliseconds. */
  function DayOf(t: Timestamp, offset: int): int {
    (t + offset) / MillisPerDay
  }

  /** Two instants fall on the same local calendar day (`toDateString()` equality). */
  predicate SameDay(a: Timestamp, b: Timestamp, offset: int)
    ensures SameDay(a, b, offset) ==> -MillisPerDay < a - b < MillisPerDay
  {
    var d := DayOf(a, offset);
    assert d * MillisPerDay <= a + offset < d * MillisPerDay + MillisPerDay;
    assert DayOf(b, offset) * MillisPerDay <= b + offset < DayOf(b, offset) * MillisPerDay + MillisPerDay;
    DayOf(a, offset) == DayOf(b, offset)
  }

  /** The filter `todayOrders` applies. */
  function Today(now: Timestamp, offset: int): Order -> bool {
    (o: Order) => SameDay(o.createdAt, now, offset)
  }

  /** `todayOrders`: the orders created on the local day of `now`, in list order. */
  function TodayOrders(orders: seq<Order>, now: Timestamp, offset: int): (r: seq<Order>)
    ensures forall o :: o in r <==> o in orders && SameDay(o.createdAt, now, offset)
    ensures forall o :: multiset(r)[o] == if SameDay(o.createdAt, now, offset) then multiset(orders)[o] else 0
    ensures IsSubsequence(r, orders)
    ensures |r| <= |orders|
  {
    FilterFacts(orders, Today(now, offset));
    Filter(orders, Today(now, offset))
  }

  /** An order created less than a day after local midnight is one of today's. */
  lemma SameDayWindow(t: Timestamp, now: Timestamp, offset: int)
    requires DayOf(now, offset) * MillisPerDay <= t + offset < (DayOf(now, offset) + 1) * MillisPerDay
    ensures SameDay(t, now, offset)
  {
  }

  /** The four counters; the product total comes from the remote list and may be missing. */
  datatype Stats = Stats(totalProducts: Option<int>, totalOrders: nat, todayOrders: nat, newMessages: nat)

  function DashboardStats(s: Store, remoteProductTotal: Option<int>, now: Timestamp, offset: int): (r: Stats)
    ensures r.totalProducts == remoteProductTotal
    ensures r.totalOrders == |s.orders|
    ensures r.todayOrders == |TodayOrders(s.orders, now, offset)| <= r.totalOrders
    ensures r.newMessages == UnreadCount(s.messages)
    ensures r.newMessages == 0 <==> forall m :: m in s.messages ==> m.isRead
  {
    Stats(remoteProductTotal, |s.orders|, |TodayOrders(s.orders, now, offset)|,
          |Filter(s.messages, IsUnread)|)
  }

  /**
   * `slice(0, 5)`, used for both lists (orders at line 79, messages at line 115):
   * the first entries in store order, at most five.
   */
  function Recent<T>(xs: seq<T>): (r: seq<T>)
    ensures |r| == if |xs| < RecentLimit then |xs| else RecentLimit
    ensures r == xs[..|r|]
  {
    Take(xs, RecentLimit)
  }

  /**
   * Adding an order raises the order count by one, and today's count by one exactly
   * when it is created on the dashboard's day; the other counters stay.
   */
  lemma AddOrderCounts(s: Store, o: Order, id: Id, created: Timestamp, remote: Option<int>, now: Timestamp, offset: int)
    ensures var before := DashboardStats(s, remote, now, offset);
            var after := DashboardStats(AddOrder(s, o, id, created), remote, now, offset);
            && after.totalProducts == before.totalProducts
            && after.totalOrders == before.totalOrders + 1
            && after.todayOrders == before.todayOrders + (if SameDay(created, now, offset) then 1 else 0)
            && after.newMessages == before.newMessages
  {
    var t := AddOrder(s, o, id, created);
    assert t.orders == s.orders + [o.(id := id, createdAt := created)];
    FilterAppendLength(s.orders, o.(id := id, createdAt := created), Today(now, offset));
  }

  /** Adding a message raises the new-message counter by one; the other counters stay. */
  lemma AddMessageCounts(s: Store, m: ContactMessage, id: Id, created: Timestamp, remote: Option<int>, now: Timestamp, offset: int)
    ensures var before := DashboardStats(s, remote, now, offset);
            var after := DashboardStats(AddMessage(s, m, id, created), remote, now, offset);
            && after.totalProducts == before.totalProducts
            && after.totalOrders == before.totalOrders
            && after.todayOrders == before.todayOrders
            && after.newMessages == before.newMessages + 1
  {
    var t := AddMessage(s, m, id, created);
    assert t.messages == s.messages + [m.(id := id, createdAt := created, isRead := false)];
    FilterAppendLength(s.messages, m.(id := id, createdAt := created, isRead := false), IsUnread);
  }

  /**
   * Once five orders exist, adding one does not change the recent list: new orders
   * are appended, so only the first five ever show. Before that, the new order shows last.
   */
  lemma AddOrderRecent(s: Store, o: Order, id: Id, created: Timestamp)
    ensures var after := Recent(AddOrder(s, o, id, created).orders);
            if |s.orders| >= RecentLimit then after == Recent(s.orders)
            else after == s.orders + [o.(id := id, createdAt := created)]
  {
  }

  /** Once five messages exist, adding one does not change the recent list. */
  lemma AddMessageRecent(s: Store, m: ContactMessage, id: Id, created: Timestamp)
    ensures var after := Recent(AddMessage(s, m, id, created).messages);
            if |s.messages| >= RecentLimit then after == Recent(s.messages)
            else after == s.messages + [m.(id := id, createdAt := created, isRead := false)]
  {
  }
}

=== FILE: entities.dfy ===
/**
 * The four entities of the admin dashboard (`src/types/admin.ts`) and the
 * partial records (`Partial<T>`) that the store's update operations merge in.
 */
module Entities {
  import opened Wrappers

  /** Opaque string identifier. */
  type Id = string

  /** A creation instant in milliseconds; the source keeps it as an ISO-8601 string. */
  type Timestamp = int

  /** A catalogue item with Uzbek, English and Russian texts. `size` and `image` may be missing. */
  datatype Product = Product(
    id: Id,
    nameUz: string, nameEn: string, nameRu: string,
    descriptionUz: string, descriptionEn: string, descriptionRu: string,
    price: int,
    size: Option<string>,
    categoryId: Id,
    image: Option<string>,
    createdAt: Timestamp)

  datatype Category = Category(id: Id, nameUz: string, nameEn: string, nameRu: string, createdAt: Timestamp)

  /** One line of an order: a product reference with a quantity and a unit price. */
  datatype OrderItem = OrderItem(id: Id, productId: Id, quantity: int, price: int)

  /**
   * A customer order. `status` is one of `StatusNew`, `StatusInProgress`, `StatusDone`
   * by declaration only: nothing checks it at run time. `products` is an optional
   * list whose elements are never inspected, only counted.
   */
  datatype Order = Order(
    id: Id,
    fullName: string, phone: string, address: string,
    email: Option<string>,
    oferta: bool,
    totalPrice: int,
    status: string,
    items: seq<OrderItem>,
    createdAt: Timestamp,
    products: Option<seq<string>>)

  const StatusNew := "Yangi"
  const StatusInProgress := "Jarayonda"
  const StatusDone := "Yakunlangan"

  datatype ContactMessage = ContactMessage(
    id: Id, name: string, email: string, phone: Option<string>, message: string,
    isRead: bool, createdAt: Timestamp)

  /** One key of a partial record: absent (`Keep`) or present with a value (`Set`). */
  datatype Field<T> = Keep | Set(value: T)

  /** The value a key ends with after `{ ...current, ...patch }`. */
  function Over<T>(f: Field<T>, current: T): T {
    match f
    case Keep => current
    case Set(v) => v
  }

  datatype ProductPatch = ProductPatch(
    id: Field<Id>,
    nameUz: Field<string>, nameEn: Field<string>, nameRu: Field<string>,
    descriptionUz: Field<string>, descriptionEn: Field<string>, descriptionRu: Field<string>,
    price: Field<int>,
    size: Field<Option<string>>,
    categoryId: Field<Id>,
    image: Field<Option<string>>,
    createdAt: Field<Timestamp>)

  /** The empty partial product `{}`. */
  const NoProductChange := ProductPatch(Keep, Keep, Keep, Keep, Keep, Keep, Keep, Keep, Keep, Keep, Keep, Keep)

  /** `{ ...p, ...d }` for products: present keys of `d` win, absent ones keep `p`'s value. */
  function MergeProduct(p: Product, d: ProductPatch): (r: Product)
    ensures d == NoProductChange ==> r == p
    ensures d.id.Keep? ==> r.id == p.id
  {
    Product(
      Over(d.id, p.id),
      Over(d.nameUz, p.nameUz), Over(d.nameEn, p.nameEn), Over(d.nameRu, p.nameRu),
      Over(d.descriptionUz, p.descriptionUz), Over(d.descriptionEn, p.descriptionEn),
      Over(d.descriptionRu, p.descriptionRu),
      Over(d.price, p.price),
      Over(d.size, p.size),
      Over(d.categoryId, p.categoryId),
      Over(d.image, p.image),
      Over(d.createdAt, p.createdAt))
  }

  datatype CategoryPatch = CategoryPatch(
    id: Field<Id>, nameUz: Field<string>, nameEn: Field<string>, nameRu: Field<string>,
    createdAt: Field<Timestamp>)

  /** The empty partial category `{}`. */
  const NoCategoryChange := CategoryPatch(Keep, Keep, Keep, Keep, Keep)

  /** `{ ...c, ...d }` for categories: present keys of `d` win, absent ones keep `c`'s value. */
  function MergeCategory(c: Category, d: CategoryPatch): (r: Category)
    ensures d == NoCategoryChange ==> r == c
    ensures d.id.Keep? ==> r.id == c.id
  {
    Category(Over(d.id, c.id), Over(d.nameUz, c.nameUz), Over(d.nameEn, c.nameEn),
             Over(d.nameRu, c.nameRu), Over(d.createdAt, c.createdAt))
  }

  datatype OrderPatch = OrderPatch(
    id: Field<Id>,
    fullName: Field<string>, phone: Field<string>, address: Field<string>,
    email: Field<Option<string>>,
    oferta: Field<bool>,
    totalPrice: Field<int>,
    status: Field<string>,
    items: Field<seq<OrderItem>>,
    createdAt: Field<Timestamp>,
    products: Field<Option<seq<string>>>)

  /** The empty partial order `{}`. */
  const NoOrderChange := OrderPatch(Keep, Keep, Keep, Keep, Keep, Keep, Keep, Keep, Keep, Keep, Keep)

  /** `{ ...o, ...d }` for orders: present keys of `d` win, absent ones keep `o`'s value. */
  function MergeOrder(o: Order, d: OrderPatch): (r: Order)
    ensures d == NoOrderChange ==> r == o
    ensures d.id.Keep? ==> r.id == o.id
  {
    Order(
      Over(d.id, o.id),
      Over(d.fullName, o.fullName), Over(d.phone, o.phone), Over(d.address, o.address),
      Over(d.email, o.email),
      Over(d.oferta, o.oferta),
      Over(d.totalPrice, o.totalPrice),
      Over(d.status, o.status),
      Over(d.items, o.items),
      Over(d.createdAt, o.createdAt),
      Over(d.products, o.products))
  }

  /** The partial order `{ status }` sent by the order details dialog. */
  function StatusPatch(status: string): (d: OrderPatch)
    ensures forall o: Order :: MergeOrder(o, d) == o.(status := status)
  {
    OrderPatch(Keep, Keep, Keep, Keep, Keep, Keep, Keep, Set(status), Keep, Keep, Keep)
  }

  /** Merging the same partial record twice is merging it once. */
  lemma MergeProductIdempotent(p: Product, d: ProductPatch)
    ensures MergeProduct(MergeProduct(p, d), d) == MergeProduct(p, d)
  {
  }

  lemma MergeCategoryIdempotent(c: Category, d: CategoryPatch)
    ensures MergeCategory(MergeCategory(c, d), d) == MergeCategory(c, d)
  {
  }

  lemma MergeOrderIdempotent(o: Order, d: OrderPatch)
    ensures MergeOrder(MergeOrder(o, d), d) == MergeOrder(o, d)
  {
  }
}

=== FILE: forms.dfy ===
/** Pieces shared by the create/edit dialogs: optional-field normalisation and the submit outcome. */
module Forms {
  import opened Wrappers

  /** `s || undefined`: an empty form string becomes an absent field. */
  function OrAbsent(s: string): (r: Option<string>)
    ensures r.None? <==> s == ""
    ensures r.Some? ==> r.value == s
  {
    if s == "" then None else Some(s)
  }

  /** `v || ""`: an absent field becomes the empty form string. */
  function OrEmpty(o: Option<string>): (r: string)
    ensures o.None? ==> r == ""
    ensures o.Some? ==> r == o.value
  {
    o.GetOr("")
  }

  /** Filling and then normalising gives back every optional value except a present empty string. */
  lemma NormaliseAfterFill(o: Option<string>)
    ensures OrAbsent(OrEmpty(o)) == (if o == Some("") then None else o)
  {
  }

  /** A transient notification. */
  datatype Toast = Toast(title: string, description: string, destructive: bool)

  /** How the create request ended: the server accepted it, or it failed with a message (possibly empty). */
  datatype CreateResult = Created | CreateFailed(message: string)

  /** What submitting a dialog does: the create request it sends (if any), the toast it shows, and whether it closes. */
  datatype Submission<P> = Submission(request: Option<P>, toast: Toast, closes: bool)

  const ErrorTitle := "Xato"
  const SuccessTitle := "Muvaffaqiyatli"
  const UnknownError := "Noma'lum xato yuz berdi"

  /** Validation failed: nothing is sent and the dialog stays open. */
  function Reject<P>(message: string): Submission<P> {
    Submission(None, Toast(ErrorTitle, message, true), false)
  }

  /** The payload is sent; the dialog closes only when the request succeeds. */
  function Send<P>(payload: P, result: CreateResult, successText: string): (r: Submission<P>)
    ensures r.request == Some(payload)
    ensures r.closes <==> result.Created?
    ensures r.toast.destructive <==> result.CreateFailed?
    ensures result.Created? ==> r.toast.description == successText
    ensures result.CreateFailed? ==> r.toast.description == if result.message == "" then UnknownError else result.message
  {
    match result
    case Created => Submission(Some(payload), Toast(SuccessTitle, successText, false), true)
    case CreateFailed(m) => Submission(Some(payload), Toast(ErrorTitle, if m == "" then UnknownError else m, true), false)
  }

  /** `field` is the normalised form of the form string `s`. */
  predicate Normalises(field: Option<string>, s: string) {
    (field.None? <==> s == "") && OrEmpty(field) == s
  }
}

=== FILE: messages_page.dfy ===
/**
 * The messages page (`src/pages/Messages.tsx`). Handlers return the new page state
 * together with the store calls they make, so that "how many calls" can be stated;
 * `Apply` runs those calls against the store.
 */
module MessagesPage {
  import opened Wrappers
  import opened Seqs
  import opened Text
  import opened Entities
  import opened AdminStore
  import opened Forms

  /** A call a handler makes on the store. */
  datatype StoreCall = MarkAsRead(id: Id) | Delete(id: Id)

  /** The page's own state: the message in the details dialog and the one awaiting delete confirmation. */
  datatype View = View(selected: Option<ContactMessage>, detailsOpen: bool,
                       pending: Option<ContactMessage>, confirmOpen: bool)

  /** What a handler did: the new page state, the store calls it made and the toasts it showed. */
  datatype Step = Step(view: View, calls: seq<StoreCall>, toasts: seq<Toast>)

  const MessageDeleted := "Xabar o'chirildi"

  const AllReadText := "Barcha xabarlar o'qilgan"
  const UnreadSuffix := " ta o'qilmagan xabar"

  function Apply(s: Store, calls: seq<StoreCall>): Store
    decreases |calls|
  {
    if |calls| == 0 then s
    else
      var t := match calls[0]
               case MarkAsRead(id) => MarkMessageAsRead(s, id)
               case Delete(id) => DeleteMessage(s, id);
      Apply(t, calls[1..])
  }

  /** `handleViewMessage`: opens the details and marks the message read unless it already is. */
  function ViewMessage(v: View, m: ContactMessage): (r: Step)
    ensures |r.calls| == if m.isRead then 0 else 1
    ensures forall c :: c in r.calls ==> c == MarkAsRead(m.id)
    ensures r.view.selected == Some(m) && r.view.detailsOpen
    ensures r.view.pending == v.pending && r.view.confirmOpen == v.confirmOpen
    ensures r.toasts == []
  {
    Step(v.(selected := Some(m), detailsOpen := true), if m.isRead then [] else [MarkAsRead(m.id)], [])
  }

  /** Viewing a message, then viewing the store's copy of it again, marks it read exactly once. */
  lemma ViewingTwiceMarksOnce(s: Store, v: View, i: nat)
    requires i < |s.messages|
    ensures var first := ViewMessage(v, s.messages[i]);
            var t := Apply(s, first.calls);
            && |t.messages| == |s.messages|
            && t.messages[i].isRead
            && ViewMessage(first.view, t.messages[i]).calls == []
            && Apply(t, ViewMessage(first.view, t.messages[i]).calls) == t
  {
    var first := ViewMessage(v, s.messages[i]);
    if !s.messages[i].isRead {
      assert first.calls == [MarkAsRead(s.messages[i].id)];
      assert Apply(s, first.calls) == MarkMessageAsRead(s, s.messages[i].id);
    }
  }

  /** `handleDelete`: remembers the message and opens the confirmation. */
  function RequestDelete(v: View, m: ContactMessage): (r: View)
    ensures r.pending == Some(m) && r.confirmOpen
    ensures r.selected == v.selected && r.detailsOpen == v.detailsOpen
  {
    v.(pending := Some(m), confirmOpen := true)
  }

  /** `confirmDelete`: deletes the pending message and clears it; does nothing when none is pending. */
  function ConfirmDelete(v: View): (r: Step)
    ensures v.pending.None? ==> r.calls == [] && r.view == v
    ensures v.pending.Some? ==> r.calls == [Delete(v.pending.value.id)]
    ensures v.pending.Some? ==> r.view.pending.None? && !r.view.confirmOpen
    ensures r.toasts == if v.pending.Some? then [Toast(SuccessTitle, MessageDeleted, false)] else []
    ensures r.view.selected == v.selected && r.view.detailsOpen == v.detailsOpen
  {
    match v.pending
    case None => Step(v, [], [])
    case Some(m) =>
      Step(v.(confirmOpen := false, pending := None), [Delete(m.id)], [Toast(SuccessTitle, MessageDeleted, false)])
  }

  /** Asking to delete a message and confirming removes every message with its id and nothing else. */
  lemma RequestThenConfirmDeletes(s: Store, v: View, m: ContactMessage)
    ensures var t := Apply(s, ConfirmDelete(RequestDelete(v, m)).calls);
            && (forall x :: x in t.messages <==> x in s.messages && x.id != m.id)
            && OnlyMessagesChanged(s, t)
  {
    var calls := ConfirmDelete(RequestDelete(v, m)).calls;
    assert calls == [Delete(m.id)];
    assert calls[1..] == [];
    assert Apply(s, calls) == Apply(DeleteMessage(s, m.id), []) == DeleteMessage(s, m.id);
  }

  predicate IsUnread(m: ContactMessage) {
    !m.isRead
  }

  /** Selects the unread messages whose id is `id`. */
  function UnreadWith(id: Id): ContactMessage -> bool {
    (m: ContactMessage) => m.id == id && !m.isRead
  }

  /** `unreadCount`: how many messages are unread. */
  function UnreadCount(ms: seq<ContactMessage>): (n: nat)
    ensures n <= |ms|
    ensures n == 0 <==> forall m :: m in ms ==> m.isRead
    ensures n == |ms| <==> forall m :: m in ms ==> !m.isRead
    ensures n == |set i | 0 <= i < |ms| && !ms[i].isRead|
  {
    var unread := Filter(ms, IsUnread);
    FilterFacts(ms, IsUnread);
    UnreadPositions(ms);
    assert |unread| == |ms| <==> forall m :: m in ms ==> !m.isRead by {
      if forall m :: m in ms ==> !m.isRead {
        FilterKeepsAll(ms, IsUnread);
      }
      if |unread| == |ms| {
        assert multiset(unread) <= multiset(ms);
        assert multiset(unread) == multiset(ms) by {
          MultisetSubsetOfEqualSize(multiset(unread), multiset(ms));
        }
        forall m | m in ms ensures !m.isRead {
          assert multiset(ms)[m] > 0;
        }
      }
    }
    |unread|
  }

  /** The unread messages are as many as the positions holding one. */
  lemma UnreadPositions(ms: seq<ContactMessage>)
    ensures |Filter(ms, IsUnread)| == |set i | 0 <= i < |ms| && !ms[i].isRead|
  {
    FilterCountsPositions(ms, IsUnread, 0);
    assert ms[0..] == ms;
    assert Positions(ms, IsUnread, 0) == set i | 0 <= i < |ms| && !ms[i].isRead;
  }

  /** The unread messages with id `id`. */
  function UnreadWithId(ms: seq<ContactMessage>, id: Id): nat {
    |Filter(ms, UnreadWith(id))|
  }

  /** Marking a message read lowers the unread count by exactly the unread copies of that id. */
  lemma MarkingLowersUnread(s: Store, id: Id)
    ensures UnreadCount(MarkMessageAsRead(s, id).messages) == UnreadCount(s.messages) - UnreadWithId(s.messages, id)
  {
    UnreadAfterMarking(s.messages, id);
  }

  lemma {:induction false} UnreadAfterMarking(ms: seq<ContactMessage>, id: Id)
    ensures |Filter(MarkedRead(ms, id), IsUnread)| == |Filter(ms, IsUnread)| - |Filter(ms, UnreadWith(id))|
  {
    if |ms| > 0 {
      var marked := MarkedRead(ms, id);
      UnreadAfterMarking(ms[1..], id);
      assert marked[1..] == MarkedRead(ms[1..], id);
      FilterLengthStep(marked, IsUnread);
      FilterLengthStep(ms, IsUnread);
      FilterLengthStep(ms, UnreadWith(id));
      assert IsUnread(marked[0]) <==> ms[0].id != id && !ms[0].isRead;
    }
  }

  /** The header line: the unread count when there is one, the all-read text otherwise. */
  function HeaderText(ms: seq<ContactMessage>): (r: string)
    ensures r == AllReadText <==> UnreadCount(ms) == 0
    ensures UnreadCount(ms) > 0 ==> ParseDecimal(r) == Some(UnreadCount(ms))
  {
    var n := UnreadCount(ms);
    if n > 0 then
      ParseShowRoundTrip(n, UnreadSuffix);
      var r := ShowInt(n) + UnreadSuffix;
      assert r != AllReadText by {
        assert IsDigit(r[0]);
      }
      r
    else AllReadText
  }
}

=== FILE: order_details.dfy ===
/**
 * The order details dialog (`src/components/OrderDetailsDialog.tsx`): changing an
 * order's status through the store, naming line products, and the price table.
 */
module OrderDetails {
  import opened Wrappers
  import opened Seqs
  import opened Entities
  import opened AdminStore
  import opened Forms
  import opened OrdersPage

  /** Shown for an order line whose product cannot be named. */
  const UnknownProduct := "Noma'lum mahsulot"

  const StatusUpdated := "Buyurtma holati yangilandi"

  /** What a status change did: the store after it and the toast it showed. */
  datatype Changed = Changed(store: Store, toast: Toast)

  /**
   * `handleStatusChange`: `updateOrder(order.id, { status })` on the local store, then
   * a success toast, shown whether or not the store holds an order with that id.
   */
  function ChangeStatus(s: Store, order: Order, newStatus: string): (r: Changed)
    ensures var t := r.store;
            && |t.orders| == |s.orders|
            && (forall i :: 0 <= i < |s.orders| ==>
                  t.orders[i] == if s.orders[i].id == order.id then s.orders[i].(status := newStatus) else s.orders[i])
            && (forall i :: 0 <= i < |s.orders| ==> t.orders[i].(status := s.orders[i].status) == s.orders[i])
            && OnlyOrdersChanged(s, t)
    ensures r.toast == Toast(SuccessTitle, StatusUpdated, false)
  {
    Changed(UpdateOrder(s, order.id, StatusPatch(newStatus)), Toast(SuccessTitle, StatusUpdated, false))
  }

  /** Choosing the status an order already has leaves the store as it was. */
  lemma ChangeToSameStatus(s: Store, order: Order)
    requires forall o :: o in s.orders && o.id == order.id ==> o.status == order.status
    ensures ChangeStatus(s, order, order.status).store == s
  {
    var t := ChangeStatus(s, order, order.status).store;
    assert t.orders == s.orders by {
      forall i | 0 <= i < |s.orders| ensures t.orders[i] == s.orders[i] {
        if s.orders[i].id == order.id {
          assert s.orders[i] in s.orders;
        }
      }
    }
  }

  /** `getProductName`: the first matching product's Uzbek name, or the placeholder. */
  function ProductName(products: seq<Product>, productId: Id): (r: string)
    ensures (forall p :: p in products ==> p.id != productId) ==> r == UnknownProduct
    ensures forall i ::
              (0 <= i < |products| && products[i].id == productId
               && forall j :: 0 <= j < i ==> products[j].id != productId) ==>
              r == (if products[i].nameUz == "" then UnknownProduct else products[i].nameUz)
    ensures r == UnknownProduct || exists p :: p in products && p.id == productId && p.nameUz == r
  {
    LookupLabel(products, (p: Product) => p.id == productId, (p: Product) => p.nameUz, UnknownProduct)
  }

  /** The "Jami" cell of each row: unit price times quantity, one per item, in item order. */
  function LineTotals(o: Order): (r: seq<int>)
    ensures |r| == |o.items|
    ensures forall i :: 0 <= i < |o.items| ==> r[i] == o.items[i].price * o.items[i].quantity
  {
    seq(|o.items|, i requires 0 <= i < |o.items| => o.items[i].price * o.items[i].quantity)
  }

  function Sum(xs: seq<int>): int {
    if |xs| == 0 then 0 else xs[0] + Sum(xs[1..])
  }

  /** The footer total: the stored `totalPrice`. */
  function FooterTotal(o: Order): int {
    o.totalPrice
  }

  /** The footer depends on the stored total alone: replacing the items does not move it. */
  lemma FooterIgnoresItems(o: Order, items: seq<OrderItem>)
    ensures FooterTotal(o.(items := items)) == FooterTotal(o)
  {
  }

  /** The footer is not reconciled with the lines: an order can show lines that disagree with it. */
  lemma FooterNotReconciled()
    ensures exists o: Order :: FooterTotal(o) != Sum(LineTotals(o))
  {
    var o := Order("1", "", "", "", None, false, 0, StatusNew,
                   [OrderItem("1", "p", 2, 5)], 0, None);
    assert LineTotals(o) == [10];
    assert Sum([10]) == 10;
    assert FooterTotal(o) != Sum(LineTotals(o));
  }

  lemma {:induction false} SumAppend(xs: seq<int>, x: int)
    ensures Sum(xs + [x]) == Sum(xs) + x
  {
    if |xs| == 0 {
      assert xs + [x] == [x];
      assert [x][1..] == [];
    } else {
      assert (xs + [x])[1..] == xs[1..] + [x];
      SumAppend(xs[1..], x);
    }
  }

  /** Adding an item adds its line total to the sum of the lines. */
  lemma AddedItemAddsItsLine(o: Order, item: OrderItem)
    ensures Sum(LineTotals(o.(items := o.items + [item]))) == Sum(LineTotals(o)) + item.price * item.quantity
  {
    assert LineTotals(o.(items := o.items + [item])) == LineTotals(o) + [item.price * item.quantity];
    SumAppend(LineTotals(o), item.price * item.quantity);
  }

  /** A status change leaves every order's lines, footer and item count as they were. */
  lemma ChangeStatusKeepsTotals(s: Store, order: Order, newStatus: string)
    ensures var t := ChangeStatus(s, order, newStatus).store;
            forall i :: 0 <= i < |s.orders| ==>
              && LineTotals(t.orders[i]) == LineTotals(s.orders[i])
              && FooterTotal(t.orders[i]) == FooterTotal(s.orders[i])
              && ItemCount(t.orders[i]) == ItemCount(s.orders[i])
  {
  }
}

=== FILE: orders_page.dfy ===
/** The orders list view (`src/pages/Orders.tsx`): status filter, badge colours and item counts. */
module OrdersPage {
  import opened Wrappers
  import opened Seqs
  import opened Entities

  /** The status filter value that shows every order. */
  const AllStatuses := "all"

  const BlueBadge := "bg-blue-100 text-blue-800 dark:bg-blue-900 dark:text-blue-200"
  const YellowBadge := "bg-yellow-100 text-yellow-800 dark:bg-yellow-900 dark:text-yellow-200"
  const GreenBadge := "bg-green-100 text-green-800 dark:bg-green-900 dark:text-green-200"
  const GrayBadge := "bg-gray-100 text-gray-800 dark:bg-gray-900 dark:text-gray-200"

  /**
   * `filteredOrders`: the fetched orders (none when nothing was fetched), narrowed
   * to one status unless the filter is "all".
   */
  function VisibleOrders(data: Option<seq<Order>>, statusFilter: string): (r: seq<Order>)
    ensures statusFilter == AllStatuses ==> r == data.GetOr([])
    ensures statusFilter != AllStatuses ==> forall o :: o in r ==> o.status == statusFilter
    ensures statusFilter != AllStatuses ==>
              forall o :: multiset(r)[o] == if o.status == statusFilter then multiset(data.GetOr([]))[o] else 0
    ensures IsSubsequence(r, data.GetOr([]))
  {
    var orders := data.GetOr([]);
    if statusFilter == AllStatuses then
      assert IsSubsequence(orders, orders) by {
        var all := (o: Order) => true;
        FilterKeepsAll(orders, all);
        FilterFacts(orders, all);
      }
      orders
    else
      var keep := (o: Order) => o.status == statusFilter;
      FilterFacts(orders, keep);
      Filter(orders, keep)
  }

  /** `getStatusColor`: one badge per known status, gray for anything else. */
  function StatusColor(status: string): (r: string)
    ensures r == BlueBadge <==> status == StatusNew
    ensures r == YellowBadge <==> status == StatusInProgress
    ensures r == GreenBadge <==> status == StatusDone
    ensures r == GrayBadge <==> status !in {StatusNew, StatusInProgress, StatusDone}
  {
    if status == StatusNew then BlueBadge
    else if status == StatusInProgress then YellowBadge
    else if status == StatusDone then GreenBadge
    else GrayBadge
  }

  /** `order.products?.length || 1`: the item count shown on an order card. */
  function ItemCount(o: Order): (n: nat)
    ensures n >= 1
    ensures o.products.Some? && |o.products.value| > 0 ==> n == |o.products.value|
    ensures o.products.None? || o.products.value == [] ==> n == 1
  {
    match o.products
    case Some(ps) => if |ps| == 0 then 1 else |ps|
    case None => 1
  }

  /** Among the three known statuses, the badge tells which one an order has. */
  lemma BadgeIdentifiesStatus(a: string, b: string)
    requires a in {StatusNew, StatusInProgress, StatusDone}
    ensures StatusColor(a) == StatusColor(b) <==> a == b
  {
  }

  /** Under a status filter every card shows the badge of the filtered status. */
  lemma FilteredOrdersShareBadge(data: Option<seq<Order>>, statusFilter: string)
    requires statusFilter != AllStatuses
    ensures forall o :: o in VisibleOrders(data, statusFilter) ==> StatusColor(o.status) == StatusColor(statusFilter)
  {
  }

  /** Recording one more product on an order raises its card's item count by one, except from 0 to 1. */
  lemma ItemCountGrows(o: Order, name: string)
    ensures var before := o.products.GetOr([]);
            var grown := o.(products := Some(before + [name]));
            ItemCount(grown) == |before| + 1
            && ItemCount(grown) == (if before == [] then ItemCount(o) else ItemCount(o) + 1)
  {
  }
}

=== FILE: product_dialog.dfy ===
/**
 * The product create/edit dialog (`src/components/ProductDialog.tsx`): the form
 * draft, its seeding, the category select, the uploaded image and the submit
 * handler. Price parsing is a parameter `parse`; `Text.ParseDecimal` is one instance.
 * Editing sends the same create request as adding: the payload has no id.
 */
module ProductDialog {
  import opened Wrappers
  import opened Text
  import opened Entities
  import opened Forms

  /** Every form field as the text the inputs hold. */
  datatype Draft = Draft(
    nameUz: string, nameEn: string, nameRu: string,
    descriptionUz: string, descriptionEn: string, descriptionRu: string,
    price: string, size: string, categoryId: string, image: string)

  /** The body of the create request; absent fields are left out of it. */
  datatype Payload = Payload(
    nameUz: string, nameEn: Option<string>, nameRu: Option<string>,
    descriptionUz: Option<string>, descriptionEn: Option<string>, descriptionRu: Option<string>,
    price: int,
    size: Option<string>, categoryId: Option<string>, image: Option<string>)

  const BlankDraft := Draft("", "", "", "", "", "", "", "", "", "")

  /** The select value standing for "no category". */
  const NoCategory := "none"

  const MissingFields := "Mahsulot nomi va narx majburiy"
  const ProductAdded := "Mahsulot qo'shildi"

  /** The draft when the dialog opens: the edited product's fields, or all blank. */
  function SeedDraft(product: Option<Product>): (d: Draft)
    ensures product.None? ==> d == BlankDraft
    ensures product.Some? ==>
              var p := product.value;
              && d.nameUz == p.nameUz && d.nameEn == p.nameEn && d.nameRu == p.nameRu
              && d.descriptionUz == p.descriptionUz && d.descriptionEn == p.descriptionEn
              && d.descriptionRu == p.descriptionRu
              && ParseDecimal(d.price) == Some(p.price)
              && d.size == OrEmpty(p.size) && d.categoryId == p.categoryId && d.image == OrEmpty(p.image)
  {
    match product
    case None => BlankDraft
    case Some(p) =>
      ParseShowRoundTrip(p.price, "");
      assert ShowInt(p.price) + "" == ShowInt(p.price);
      Draft(p.nameUz, p.nameEn, p.nameRu, p.descriptionUz, p.descriptionEn, p.descriptionRu,
            ShowInt(p.price), OrEmpty(p.size), p.categoryId, OrEmpty(p.image))
  }

  /** The payload carries `d`: the Uzbek name verbatim, every optional text normalised. */
  predicate Carries(pl: Payload, d: Draft) {
    && pl.nameUz == d.nameUz
    && Normalises(pl.nameEn, d.nameEn) && Normalises(pl.nameRu, d.nameRu)
    && Normalises(pl.descriptionUz, d.descriptionUz) && Normalises(pl.descriptionEn, d.descriptionEn)
    && Normalises(pl.descriptionRu, d.descriptionRu)
    && Normalises(pl.size, d.size) && Normalises(pl.categoryId, d.categoryId)
    && Normalises(pl.image, d.image)
  }

  /**
   * `handleSubmit`: rejects a draft without an Uzbek name or with an unparseable
   * price; otherwise sends the normalised payload, and closes once the request succeeds.
   */
  function Submit(d: Draft, parse: string -> Option<int>, result: CreateResult): (r: Submission<Payload>)
    ensures r.request.None? <==> d.nameUz == "" || parse(d.price).None?
    ensures r.request.None? ==> r.toast == Toast(ErrorTitle, MissingFields, true)
    ensures r.request.Some? ==> Carries(r.request.value, d) && Some(r.request.value.price) == parse(d.price)
    ensures r.closes <==> r.request.Some? && result.Created?
    ensures r.request.Some? && result.CreateFailed? ==> r.toast.destructive
  {
    var price := parse(d.price);
    if d.nameUz == "" || price.None? then Reject(MissingFields)
    else
      Send(Payload(d.nameUz, OrAbsent(d.nameEn), OrAbsent(d.nameRu),
                   OrAbsent(d.descriptionUz), OrAbsent(d.descriptionEn), OrAbsent(d.descriptionRu),
                   price.value, OrAbsent(d.size), OrAbsent(d.categoryId), OrAbsent(d.image)),
           result, ProductAdded)
  }

  /** Opening a product for editing and saving at once sends that product's own data. */
  lemma UnchangedEditResends(p: Product, result: CreateResult)
    requires p.nameUz != ""
    ensures var r := Submit(SeedDraft(Some(p)), ParseDecimal, result);
            && r.request.Some?
            && r.request.value.price == p.price
            && r.request.value.nameUz == p.nameUz
            && OrEmpty(r.request.value.nameEn) == p.nameEn && OrEmpty(r.request.value.nameRu) == p.nameRu
            && OrEmpty(r.request.value.descriptionUz) == p.descriptionUz
            && OrEmpty(r.request.value.descriptionEn) == p.descriptionEn
            && OrEmpty(r.request.value.descriptionRu) == p.descriptionRu
            && r.request.value.size == (if p.size == Some("") then None else p.size)
            && r.request.value.image == (if p.image == Some("") then None else p.image)
            && OrEmpty(r.request.value.categoryId) == p.categoryId
  {
    var d := SeedDraft(Some(p));
    var r := Submit(d, ParseDecimal, result);
    NormaliseAfterFill(p.size);
    NormaliseAfterFill(p.image);
    assert r.request.value.size == OrAbsent(d.size);
    assert r.request.value.image == OrAbsent(d.image);
  }

  /** The category select: "none" clears the category, any other value is taken as the id. */
  function SelectCategory(d: Draft, v: string): (r: Draft)
    ensures r.categoryId == "" <==> v == NoCategory || v == ""
    ensures r.categoryId != "" ==> r.categoryId == v
    ensures r.(categoryId := d.categoryId) == d
  {
    d.(categoryId := if v == NoCategory then "" else v)
  }

  /** The value the category select shows for a draft: `categoryId || "none"`. */
  function ShownCategory(d: Draft): (r: string)
    ensures r != ""
    ensures r == NoCategory <==> d.categoryId == "" || d.categoryId == NoCategory
    ensures r != NoCategory ==> r == d.categoryId
  {
    if d.categoryId == "" then NoCategory else d.categoryId
  }

  /** Re-selecting the value the select shows leaves the draft as it is ... */
  lemma ReselectKeepsDraft(d: Draft)
    requires d.categoryId != NoCategory
    ensures SelectCategory(d, ShownCategory(d)) == d
  {
  }

  /** ... except for a category whose id is literally "none", which cannot stay selected. */
  lemma NoneIdCannotBeKept(d: Draft)
    requires d.categoryId == NoCategory
    ensures SelectCategory(d, ShownCategory(d)).categoryId == ""
  {
  }

  const ImageUploadedTitle := "Rasm yuklandi"
  const ImageUploadedText := "Rasm muvaffaqiyatli yuklandi"

  /** What picking a file did: the draft after it and the toast it showed, if any. */
  datatype Upload = Upload(draft: Draft, toast: Option<Toast>)

  /**
   * `handleFileChange`. `url` is `None` when no file was picked, else what `upload`
   * resolved to ("" when it failed). `errorSeen` is the upload hook's error as the
   * handler saw it: the value from the render that created the handler, not the
   * error this upload sets.
   */
  function ImageUploaded(d: Draft, url: Option<string>, errorSeen: Option<string>): (r: Upload)
    ensures url.Some? && url.value != "" ==>
              r.draft == d.(image := url.value) && r.toast == Some(Toast(ImageUploadedTitle, ImageUploadedText, false))
    ensures url.None? || url.value == "" ==> r.draft == d
    ensures url.None? ==> r.toast.None?
    ensures url == Some("") ==> (r.toast.Some? <==> errorSeen.Some? && errorSeen.value != "")
    ensures url == Some("") && r.toast.Some? ==> r.toast.value == Toast(ErrorTitle, errorSeen.value, true)
  {
    match url
    case None => Upload(d, None)
    case Some(u) =>
      if u != "" then Upload(d.(image := u), Some(Toast(ImageUploadedTitle, ImageUploadedText, false)))
      else if errorSeen.Some? && errorSeen.value != "" then Upload(d, Some(Toast(ErrorTitle, errorSeen.value, true)))
      else Upload(d, None)
  }

  /**
   * A failed upload whose handler saw no earlier error shows nothing: the error the
   * failure records reaches only handlers created by later renders.
   */
  lemma FailedUploadAfterCleanRenderIsSilent(d: Draft)
    ensures ImageUploaded(d, Some(""), None) == Upload(d, None)
  {
  }

  /** The "remove image" button empties the image field. */
  function ClearImage(d: Draft): (r: Draft)
    ensures r.image == "" && r.(image := d.image) == d
  {
    d.(image := "")
  }

  /** An uploaded image is what the next accepted submit sends; a cleared one is left out. */
  lemma UploadReachesPayload(d: Draft, url: string, parse: string -> Option<int>, result: CreateResult)
    requires url != "" && d.nameUz != "" && parse(d.price).Some?
    ensures forall e :: Submit(ImageUploaded(d, Some(url), e).draft, parse, result).request.value.image == Some(url)
    ensures Submit(ClearImage(d), parse, result).request.value.image == None
  {
  }

  /** What clicking the remove-image button did: the draft after it and the submit it set off. */
  datatype RemoveClick = RemoveClick(draft: Draft, submission: Submission<Payload>)

  /**
   * The remove-image button has no `type`, so inside the form it is a submit button.
   * A click empties the image and also submits the form. The submit handler reads
   * the draft of the current render, so it still sees the image.
   */
  function RemoveImageClicked(d: Draft, parse: string -> Option<int>, result: CreateResult): (r: RemoveClick)
    ensures r.draft.image == "" && r.draft.(image := d.image) == d
    ensures r.submission.request.None? <==> d.nameUz == "" || parse(d.price).None?
    ensures r.submission.request.Some? ==> Carries(r.submission.request.value, d)
    ensures r.submission.closes <==> r.submission.request.Some? && result.Created?
  {
    RemoveClick(ClearImage(d), Submit(d, parse, result))
  }

  /**
   * Removing the image of a valid draft sends a create request that still carries
   * that image, while the form shows none.
   */
  lemma RemovingImageSendsIt(d: Draft, parse: string -> Option<int>, result: CreateResult)
    requires d.image != "" && d.nameUz != "" && parse(d.price).Some?
    ensures var r := RemoveImageClicked(d, parse, result);
            r.draft.image == "" && r.submission.request.Some? && r.submission.request.value.image == Some(d.image)
  {
  }
}

=== FILE: products_page.dfy ===
/**
 * The products list view (`src/pages/Products.tsx`): text search over the three
 * localized names, a category filter, and a sort by price (cheapest first) or by
 * creation date (newest first). Case mapping is a parameter `lower`.
 */
module ProductsPage {
  import opened Seqs
  import opened Text
  import opened Entities

  datatype SortKey = ByPrice | ByDate

  /** The category filter value that lets every category through. */
  const AllCategories := "all"

  /** Shown for a product whose category cannot be named. */
  const UnknownCategory := "Noma'lum"

  /** The lower-cased query occurs in one of the product's lower-cased names. */
  function MatchesSearch(p: Product, query: string, lower: string -> string): (r: bool)
    ensures r <==> (exists i :: OccursAt(lower(p.nameUz), lower(query), i))
                   || (exists i :: OccursAt(lower(p.nameEn), lower(query), i))
                   || (exists i :: OccursAt(lower(p.nameRu), lower(query), i))
  {
    var q := lower(query);
    Contains(lower(p.nameUz), q) || Contains(lower(p.nameEn), q) || Contains(lower(p.nameRu), q)
  }

  predicate MatchesCategory(p: Product, categoryFilter: string) {
    categoryFilter == AllCategories || p.categoryId == categoryFilter
  }

  /** The product passes both the search and the category filter. */
  predicate Passes(p: Product, query: string, categoryFilter: string, lower: string -> string) {
    MatchesSearch(p, query, lower) && MatchesCategory(p, categoryFilter)
  }

  /** The quantity the comparator orders by, ascending. */
  function Rank(p: Product, order: SortKey): int {
    match order
    case ByPrice => p.price
    case ByDate => -p.createdAt
  }

  /** `Rank` for one sort key, as a function value. */
  function RankBy(order: SortKey): Product -> int {
    (p: Product) => Rank(p, order)
  }

  /** `filteredProducts`: the products that pass the filters, sorted. */
  function VisibleProducts(ps: seq<Product>, query: string, categoryFilter: string, order: SortKey,
                           lower: string -> string): (r: seq<Product>)
    ensures forall p :: multiset(r)[p] == if Passes(p, query, categoryFilter, lower) then multiset(ps)[p] else 0
    ensures forall p :: p in r <==> p in ps && Passes(p, query, categoryFilter, lower)
    ensures categoryFilter != AllCategories ==> forall p :: p in r ==> p.categoryId == categoryFilter
    ensures order == ByPrice ==> forall i, j :: 0 <= i < j < |r| ==> r[i].price <= r[j].price
    ensures order == ByDate ==> forall i, j :: 0 <= i < j < |r| ==> r[i].createdAt >= r[j].createdAt
  {
    var keep := (p: Product) => Passes(p, query, categoryFilter, lower);
    var kept := Filter(ps, keep);
    FilterFacts(ps, keep);
    var r := Sort(kept, RankBy(order));
    assert forall p :: p in r <==> p in kept by {
      forall p ensures p in r <==> p in kept {
        assert p in r <==> multiset(r)[p] > 0;
        assert p in kept <==> multiset(kept)[p] > 0;
      }
    }
    r
  }

  /** With an empty query and every category, the view shows each product exactly as often as the list holds it. */
  lemma EmptyFiltersShowAll(ps: seq<Product>, order: SortKey, lower: string -> string)
    requires lower("") == ""
    ensures multiset(VisibleProducts(ps, "", AllCategories, order, lower)) == multiset(ps)
    ensures |VisibleProducts(ps, "", AllCategories, order, lower)| == |ps|
  {
    forall p | p in ps ensures Passes(p, "", AllCategories, lower) {
      EmptyOccursEverywhere(lower(p.nameUz));
    }
    var r := VisibleProducts(ps, "", AllCategories, order, lower);
    assert multiset(r) == multiset(ps) by {
      forall p ensures multiset(r)[p] == multiset(ps)[p] {
        if p in ps {
          assert Passes(p, "", AllCategories, lower);
        } else {
          assert multiset(ps)[p] == 0;
        }
      }
    }
    assert |r| == |multiset(r)| == |multiset(ps)| == |ps|;
  }

  /** `getCategoryName`: the first matching category's Uzbek name, or the placeholder. */
  function CategoryName(categories: seq<Category>, categoryId: Id): (r: string)
    ensures (forall c :: c in categories ==> c.id != categoryId) ==> r == UnknownCategory
    ensures forall i ::
              (0 <= i < |categories| && categories[i].id == categoryId
               && forall j :: 0 <= j < i ==> categories[j].id != categoryId) ==>
              r == (if categories[i].nameUz == "" then UnknownCategory else categories[i].nameUz)
    ensures r == UnknownCategory || exists c :: c in categories && c.id == categoryId && c.nameUz == r
  {
    LookupLabel(categories, (c: Category) => c.id == categoryId, (c: Category) => c.nameUz, UnknownCategory)
  }
}

=== FILE: seqs.dfy ===
/** Generic sequence operations behind the list views and the store. */
module Seqs {
  import opened Wrappers

  /** `a` is obtained from `b` by deleting elements: same elements, same relative order. */
  ghost predicate IsSubsequence<T>(a: seq<T>, b: seq<T>)
    decreases |b|
  {
    |a| == 0 || (|b| > 0 && ((a[0] == b[0] && IsSubsequence(a[1..], b[1..])) || IsSubsequence(a, b[1..])))
  }

  /** The elements of `xs` satisfying `keep`, in their original order (`Array.prototype.filter`). */
  function Filter<T>(xs: seq<T>, keep: T -> bool): (r: seq<T>)
    ensures |r| <= |xs|
  {
    if |xs| == 0 then []
    else if keep(xs[0]) then [xs[0]] + Filter(xs[1..], keep)
    else Filter(xs[1..], keep)
  }

  /**
   * What filtering keeps: each element as often as `xs` holds it when it passes
   * `keep` and never otherwise, in the order of `xs`.
   */
  lemma {:induction false} FilterFacts<T(!new)>(xs: seq<T>, keep: T -> bool)
    ensures forall x :: multiset(Filter(xs, keep))[x] == if keep(x) then multiset(xs)[x] else 0
    ensures forall x :: x in Filter(xs, keep) <==> x in xs && keep(x)
    ensures IsSubsequence(Filter(xs, keep), xs)
  {
    if |xs| > 0 {
      var rest := Filter(xs[1..], keep);
      FilterFacts(xs[1..], keep);
      assert xs == [xs[0]] + xs[1..];
      if keep(xs[0]) {
        var r := [xs[0]] + rest;
        assert r[1..] == rest;
        assert Filter(xs, keep) == r;
      } else {
        assert Filter(xs, keep) == rest;
      }
    }
  }

  /** A sub-multiset as large as the whole is the whole. */
  lemma MultisetSubsetOfEqualSize<T>(a: multiset<T>, b: multiset<T>)
    requires a <= b && |a| == |b|
    ensures a == b
  {
    var d := b - a;
    assert b == a + d;
    assert |d| == 0;
  }

  /** Filtering with a predicate every element satisfies keeps the whole sequence. */
  lemma {:induction false} FilterKeepsAll<T>(xs: seq<T>, keep: T -> bool)
    requires forall x :: x in xs ==> keep(x)
    ensures Filter(xs, keep) == xs
  {
    if |xs| > 0 {
      FilterKeepsAll(xs[1..], keep);
    }
  }

  /** The filtered length grows by one for each kept element, from the front. */
  lemma FilterLengthStep<T>(xs: seq<T>, keep: T -> bool)
    requires |xs| > 0
    ensures |Filter(xs, keep)| == (if keep(xs[0]) then 1 else 0) + |Filter(xs[1..], keep)|
  {
  }

  /** Appending one element grows the filtered length by one exactly when the element is kept. */
  lemma {:induction false} FilterAppendLength<T>(xs: seq<T>, x: T, keep: T -> bool)
    ensures |Filter(xs + [x], keep)| == |Filter(xs, keep)| + (if keep(x) then 1 else 0)
  {
    var ys := xs + [x];
    if |xs| == 0 {
      assert ys == [x];
      assert ys[1..] == [];
    } else {
      assert ys[0] == xs[0];
      assert ys[1..] == xs[1..] + [x];
      FilterAppendLength(xs[1..], x, keep);
      FilterLengthStep(ys, keep);
      FilterLengthStep(xs, keep);
    }
  }

  /** The positions, from `k` on, whose element passes `keep`. */
  function Positions<T>(xs: seq<T>, keep: T -> bool, k: nat): set<int> {
    set i | k <= i < |xs| && keep(xs[i])
  }

  /** The filtered length counts the positions, from `k` on, whose element is kept. */
  lemma {:induction false} FilterCountsPositions<T>(xs: seq<T>, keep: T -> bool, k: nat)
    requires k <= |xs|
    ensures |Filter(xs[k..], keep)| == |Positions(xs, keep, k)|
    decreases |xs| - k
  {
    var here := Positions(xs, keep, k);
    if k == |xs| {
      assert xs[k..] == [];
      assert here == {};
    } else {
      var later := Positions(xs, keep, k + 1);
      FilterCountsPositions(xs, keep, k + 1);
      assert xs[k..][1..] == xs[k + 1..];
      FilterLengthStep(xs[k..], keep);
      if keep(xs[k]) {
        assert here == later + {k};
        assert k !in later;
      } else {
        assert here == later;
      }
    }
  }

  /** Appending an element the filter rejects to a sequence it keeps whole gives that sequence back. */
  lemma {:induction false} FilterDropsAppended<T>(xs: seq<T>, x: T, keep: T -> bool)
    requires forall y :: y in xs ==> keep(y)
    requires !keep(x)
    ensures Filter(xs + [x], keep) == xs
  {
    var ys := xs + [x];
    if |xs| == 0 {
      assert ys == [x];
      assert ys[1..] == [];
    } else {
      assert ys[0] == xs[0] && keep(xs[0]);
      assert ys[1..] == xs[1..] + [x];
      FilterDropsAppended(xs[1..], x, keep);
      assert Filter(ys, keep) == [xs[0]] + Filter(ys[1..], keep);
      assert xs == [xs[0]] + xs[1..];
    }
  }

  /** The index of the first element satisfying `p` (`Array.prototype.findIndex`). */
  function FindIndex<T>(xs: seq<T>, p: T -> bool): (r: Option<nat>)
    ensures r.Some? ==> r.value < |xs| && p(xs[r.value])
    ensures r.Some? ==> forall j :: 0 <= j < r.value ==> !p(xs[j])
    ensures r.None? ==> forall j :: 0 <= j < |xs| ==> !p(xs[j])
  {
    if |xs| == 0 then None
    else if p(xs[0]) then Some(0)
    else
      match FindIndex(xs[1..], p)
      case None => None
      case Some(k) => Some(k + 1)
  }

  /**
   * The label of the first element satisfying `matches`, falling back when
   * there is none or its label is empty: `xs.find(matches)?.name || fallback`.
   */
  function LookupLabel<T>(xs: seq<T>, matches: T -> bool, nameOf: T -> string, fallback: string): (r: string)
    ensures (forall j :: 0 <= j < |xs| ==> !matches(xs[j])) ==> r == fallback
    ensures forall i :: 0 <= i < |xs| && matches(xs[i]) && (forall j :: 0 <= j < i ==> !matches(xs[j])) ==>
              r == (if nameOf(xs[i]) == "" then fallback else nameOf(xs[i]))
  {
    match FindIndex(xs, matches)
    case None => fallback
    case Some(i) => if nameOf(xs[i]) == "" then fallback else nameOf(xs[i])
  }

  /** The first `min(n, |xs|)` elements (`xs.slice(0, n)`). */
  function Take<T>(xs: seq<T>, n: nat): (r: seq<T>)
    ensures |r| == if n < |xs| then n else |xs|
    ensures forall i :: 0 <= i < |r| ==> r[i] == xs[i]
  {
    if n < |xs| then xs[..n] else xs
  }

  /** `xs` is in non-decreasing order of `rank`. */
  ghost predicate Ordered<T>(xs: seq<T>, rank: T -> int) {
    forall i, j :: 0 <= i < j < |xs| ==> rank(xs[i]) <= rank(xs[j])
  }

  /** Places `x` before the first element that does not rank below it. */
  function Insert<T>(x: T, xs: seq<T>, rank: T -> int): (r: seq<T>)
    ensures |r| == |xs| + 1
    ensures multiset(r) == multiset(xs) + multiset{x}
  {
    if |xs| == 0 then [x]
    else if rank(x) <= rank(xs[0]) then [x] + xs
    else
      assert xs == [xs[0]] + xs[1..];
      [xs[0]] + Insert(x, xs[1..], rank)
  }

  /** A lower bound on `x` and on every element of `xs` bounds the insertion too. */
  lemma {:induction false} InsertAbove<T>(x: T, xs: seq<T>, rank: T -> int, b: int)
    requires b <= rank(x)
    requires forall i :: 0 <= i < |xs| ==> b <= rank(xs[i])
    ensures forall i :: 0 <= i < |Insert(x, xs, rank)| ==> b <= rank(Insert(x, xs, rank)[i])
  {
    if |xs| > 0 && rank(x) > rank(xs[0]) {
      InsertAbove(x, xs[1..], rank, b);
    }
  }

  lemma {:induction false} InsertKeepsOrder<T>(x: T, xs: seq<T>, rank: T -> int)
    requires Ordered(xs, rank)
    ensures Ordered(Insert(x, xs, rank), rank)
  {
    if |xs| == 0 {
    } else if rank(x) <= rank(xs[0]) {
      PrependKeepsOrder(x, xs, rank);
    } else {
      var rest := Insert(x, xs[1..], rank);
      InsertKeepsOrder(x, xs[1..], rank);
      InsertAbove(x, xs[1..], rank, rank(xs[0]));
      PrependKeepsOrder(xs[0], rest, rank);
    }
  }

  /** An element no greater than every element of an ordered sequence may go in front of it. */
  lemma PrependKeepsOrder<T>(x: T, xs: seq<T>, rank: T -> int)
    requires Ordered(xs, rank)
    requires forall i :: 0 <= i < |xs| ==> rank(x) <= rank(xs[i])
    ensures Ordered([x] + xs, rank)
  {
    var r := [x] + xs;
    forall i, j | 0 <= i < j < |r| ensures rank(r[i]) <= rank(r[j]) {
      if i == 0 {
        assert r[j] == xs[j - 1];
      } else {
        assert r[i] == xs[i - 1] && r[j] == xs[j - 1];
      }
    }
  }

  /** Insertion sort by `rank`; elements of equal rank keep their relative order. */
  function Sort<T>(xs: seq<T>, rank: T -> int): (r: seq<T>)
    ensures Ordered(r, rank)
    ensures multiset(r) == multiset(xs)
  {
    if |xs| == 0 then []
    else
      assert xs == [xs[0]] + xs[1..];
      var rest := Sort(xs[1..], rank);
      InsertKeepsOrder(xs[0], rest, rank);
      Insert(xs[0], rest, rank)
  }
}

=== FILE: text.dfy ===
/**
 * String operations the views rely on: substring search (`String.prototype.includes`),
 * decimal rendering of integers (`Number.prototype.toString`) and an integer-only
 * stand-in for `parseFloat`.
 */
module Text {
  import opened Wrappers

  /** `needle` occurs in `hay` starting at index `i`. */
  predicate OccursAt(hay: string, needle: string, i: int) {
    0 <= i && i + |needle| <= |hay| && hay[i..i + |needle|] == needle
  }

  /** `hay.includes(needle)`. */
  function Contains(hay: string, needle: string): (r: bool)
    ensures r <==> exists i :: OccursAt(hay, needle, i)
    decreases |hay|
  {
    if |hay| < |needle| then
      assert forall i :: !OccursAt(hay, needle, i);
      false
    else if hay[..|needle|] == needle then
      assert OccursAt(hay, needle, 0);
      true
    else
      var r := Contains(hay[1..], needle);
      ShiftOccurrence(hay, needle);
      r
  }

  /** Occurrences in `hay[1..]` are the occurrences in `hay` past index 0. */
  lemma ShiftOccurrence(hay: string, needle: string)
    requires |hay| >= |needle| && hay[..|needle|] != needle
    ensures (exists i :: OccursAt(hay, needle, i)) <==> (exists i :: OccursAt(hay[1..], needle, i))
  {
    if exists i :: OccursAt(hay, needle, i) {
      var i :| OccursAt(hay, needle, i);
      assert i != 0;
      assert hay[1..][i - 1..i - 1 + |needle|] == hay[i..i + |needle|];
      assert OccursAt(hay[1..], needle, i - 1);
    }
    if exists i :: OccursAt(hay[1..], needle, i) {
      var i :| OccursAt(hay[1..], needle, i);
      assert hay[1..][i..i + |needle|] == hay[i + 1..i + 1 + |needle|];
      assert OccursAt(hay, needle, i + 1);
    }
  }

  /** The empty string occurs in every string, so an empty query matches everything. */
  lemma EmptyOccursEverywhere(hay: string)
    ensures Contains(hay, "")
  {
    assert OccursAt(hay, "", 0);
  }

  predicate IsDigit(c: char) {
    '0' <= c <= '9'
  }

  function DigitChar(d: nat): (c: char)
    requires d < 10
    ensures IsDigit(c)
  {
    "0123456789"[d]
  }

  function DigitValue(c: char): nat
    requires IsDigit(c)
  {
    c as int - '0' as int
  }

  predicate AllDigits(s: string) {
    forall i :: 0 <= i < |s| ==> IsDigit(s[i])
  }

  /** The number a string of decimal digits denotes, most significant digit first. */
  function DigitsValue(s: string): nat
    requires AllDigits(s)
  {
    if |s| == 0 then 0 else 10 * DigitsValue(s[..|s| - 1]) + DigitValue(s[|s| - 1])
  }

  /** Decimal digits of `n` without leading zeros ("0" for zero). */
  function ShowNat(n: nat): (s: string)
    ensures |s| >= 1 && AllDigits(s)
    ensures DigitsValue(s) == n
  {
    if n < 10 then
      assert DigitValue(DigitChar(n)) == n;
      [DigitChar(n)]
    else
      var s := ShowNat(n / 10) + [DigitChar(n % 10)];
      assert s[..|s| - 1] == ShowNat(n / 10);
      assert DigitValue(DigitChar(n % 10)) == n % 10;
      s
  }

  /** `n.toString()` for an integer `n`: its decimal digits, with a leading '-' when negative. */
  function ShowInt(n: int): (s: string)
    ensures |s| >= 1
    ensures n < 0 <==> s[0] == '-'
    ensures n >= 0 ==> AllDigits(s) && DigitsValue(s) == n
    ensures n < 0 ==> AllDigits(s[1..]) && DigitsValue(s[1..]) == -n
  {
    if n < 0 then "-" + ShowNat(-n) else ShowNat(n)
  }

  /** The longest prefix of `s` made of decimal digits. */
  function LeadingDigits(s: string): (r: string)
    ensures AllDigits(r) && |r| <= |s| && r == s[..|r|]
    ensures |r| < |s| ==> !IsDigit(s[|r|])
  {
    if |s| > 0 && IsDigit(s[0]) then [s[0]] + LeadingDigits(s[1..]) else []
  }

  /**
   * Integer-only reading of `parseFloat`: an optional sign followed by the leading
   * run of digits; text after the digits is ignored; no digits means not a number.
   */
  function ParseDecimal(s: string): (r: Option<int>)
    ensures r.None? <==> LeadingDigits(if |s| > 0 && (s[0] == '-' || s[0] == '+') then s[1..] else s) == []
  {
    var negative := |s| > 0 && s[0] == '-';
    var body := if |s| > 0 && (s[0] == '-' || s[0] == '+') then s[1..] else s;
    var ds := LeadingDigits(body);
    if ds == [] then None
    else
      var magnitude: int := DigitsValue(ds);
      Some(if negative then -magnitude else magnitude)
  }

  /** The digit run stops where the digits stop. */
  lemma {:induction false} LeadingDigitsOfDigits(s: string, rest: string)
    requires AllDigits(s)
    requires |rest| == 0 || !IsDigit(rest[0])
    ensures LeadingDigits(s + rest) == s
  {
    if |s| == 0 {
      assert s + rest == rest;
    } else {
      LeadingDigitsOfDigits(s[1..], rest);
      assert (s + rest)[1..] == s[1..] + rest;
      assert s == [s[0]] + s[1..];
    }
  }

  /** Reading back a rendered integer yields that integer, whatever non-digit text follows it. */
  lemma ParseShowRoundTrip(n: int, rest: string)
    requires |rest| == 0 || !IsDigit(rest[0])
    ensures ParseDecimal(ShowInt(n) + rest) == Some(n)
  {
    var s := ShowInt(n) + rest;
    if n < 0 {
      var digits := ShowNat(-n);
      assert s == "-" + (digits + rest);
      assert s[0] == '-' && s[1..] == digits + rest;
      LeadingDigitsOfDigits(digits, rest);
      assert LeadingDigits(s[1..]) == digits;
      assert DigitsValue(digits) == -n;
    } else {
      var digits := ShowNat(n);
      assert s == digits + rest;
      assert IsDigit(s[0]);
      LeadingDigitsOfDigits(digits, rest);
      assert LeadingDigits(s) == digits;
    }
  }
}

=== FILE: wrappers.dfy ===
/** Option and Result datatypes used throughout the model. */
module Wrappers {

  /** A value that may be missing; the model's stand-in for `undefined`. */
  datatype Option<+T> = None | Some(value: T) {

    /** The wrapped value, or `default` when there is none. */
    function GetOr(default: T): T {
      match this
      case Some(v) => v
      case None => default
    }
  }

  /** Either a value or an error, for operations that throw in the source. */
  datatype Result<+R, +E> = Success(value: R) | Failure(error: E)
}
